=== FILE: README.md ===
# Campus Closet: the web app's form, listing and catalogue rules in Dafny

Campus Closet is a Next.js web app in which Stanford students lend clothes to each other. This
project models the deterministic rules of its client code and proves properties of them. Each
page's state handler is written as a pure state-to-state function.

- **Account validators.** The sign-up and sign-in modals turn a form into a map from field
  name to error message. The form is accepted exactly when that map is empty. Editing a field
  clears that field's message and no other.
- **Listing form.** The list-an-item page has its own validator and a photo list. A
  successful submit appends the new listing to the stored `clothingItems` list.
- **My listings.** The my-listings page shows the stored listings that belong to the signed-in
  user. Deleting a listing removes it from both the store and the view.
- **Catalogue.** The browse page filters twelve demonstration items by search text, size,
  category and price range. It sorts them by one of three orders and reveals them six at a
  time. The home page's browse section has a smaller copy of the same filter.
- **FAQ.** The FAQ page keeps an open/closed map for its answers.
- **Profile.** The profile page has a save handler and a cancel handler.
- **Auth context.** `useAuth` builds a `User` from a session and reports whether anyone is
  signed in. It also handles a failed sign-in, merges a profile update, and ends the logged
  session.

The JavaScript primitives these rules depend on are written out in `Text`:

- `trim` strips the ECMAScript whitespace set.
- `toLowerCase` is modelled for ASCII only.
- `.length` counts UTF-16 code units.
- `replace(/\D/g, "")` keeps the ASCII digits.
- `Number` reads decimal literals.

Array `filter`, `slice` and the stable comparator `sort` are written out in `Seqs`.

No rent, return or availability logic appears in the modelled code. The listing and
catalogue records carry prices and deposits and nothing else of a rental. The model therefore
follows the code and not a rental engine.

Modules follow the source files:

- `SignUp` and `SignIn` model the two modals, and `AccountRules` holds the field rules they
  share.
- `ListItem`, `MyListings`, `Browse`, `BrowseSection`, `Faq` and `Profile` model their pages.
- `Auth` models `hooks/useAuth.tsx`.
- `FieldErrors`, `Text`, `Seqs` and `Options` are shared helpers.

## Model

| member | source | states |
|---|---|---|
| AccountRules.NameError | components/sign-up-modal.tsx:50-52 | the name is rejected with "Name is required" exactly when every character is whitespace |
| AccountRules.EmailError | components/sign-up-modal.tsx:55-59 | the email is accepted iff it ends with "@stanford.edu"; the "required" message appears iff it is blank, otherwise the domain message, never both |
| AccountRules.InstagramError | components/sign-up-modal.tsx:62-64 | the handle is accepted iff it is blank or starts with "@" |
| AccountRules.PasswordError | components/sign-up-modal.tsx:66-71 | the password is accepted iff it has at least 8 UTF-16 code units; the "required" message appears iff it is empty |
| AccountRules.PhoneError | components/sign-up-modal.tsx:79-83 | the phone is accepted iff removing all non-digits leaves exactly 10 digits; a blank phone gets the "required" message |
| AccountRules.PlaceholderPhoneAccepted | components/sign-up-modal.tsx:196 | the placeholder "(650) 123-4567" passes the phone rule |
| SignUp.Validate | components/sign-up-modal.tsx:46-87 | error keys lie within the six fields, messages are non-empty, and each field's entry is exactly its rule's verdict (name, email, instagram, password, phone); the confirmation carries "Passwords do not match" iff the two passwords differ, whatever the password's own validity |
| SignUp.FieldMessages | components/sign-up-modal.tsx:50-83 | each field is in error iff its condition fails, with the source's message: "Name is required", the email required/domain split, "Instagram handle should start with @", the password required/too-short split, "Passwords do not match", the phone required/invalid split |
| SignUp.ValidIff | components/sign-up-modal.tsx:85-86 | the form is valid iff every field rule holds |
| SignUp.HandleChange | components/sign-up-modal.tsx:32-44 | the edited field takes the value, other fields keep theirs; only the edited field's error can disappear and all other errors are kept unchanged |
| SignUp.EditAfterValidate | components/sign-up-modal.tsx:37-43 | after validation, editing field f leaves exactly the validation errors minus f |
| SignIn.Validate | components/sign-in-modal.tsx:43-79 | error keys lie within name, email, instagram, password and phone, and each field's entry is exactly the shared rule's verdict |
| SignIn.FieldMessages | components/sign-in-modal.tsx:47-75 | each of the five fields is in error iff its condition fails, with the source's message for each case |
| SignIn.ValidIff | components/sign-in-modal.tsx:77-78 | the form is valid iff the five field rules hold |
| SignIn.AgreesWithSignUp | components/sign-in-modal.tsx:47-75 | on equal shared fields, sign-in errors are exactly the sign-up errors without the confirmation error |
| SignIn.HandleChange | components/sign-in-modal.tsx:29-41 | the edited field takes the value; only its error can disappear, every other error is unchanged |
| FieldErrors.ClearOnEdit | components/sign-up-modal.tsx:37-43 | a truthy message for the edited key is deleted; no other key appears, disappears or changes |
| FieldErrors.ClearOnEditDeletesKey | components/sign-in-modal.tsx:34-40 | when every message is non-empty, clearing is exactly removal of the key |
| ListItem.AmountError | app/list-item/page.tsx:78-88 | an amount is accepted iff `Number` reads it as a number above zero; blank gives the "required" message, otherwise the "positive number" message |
| ListItem.Validate | app/list-item/page.tsx:63-100 | title and description are in error iff blank, size and category iff empty, fee and deposit exactly as `AmountError` rules, photos iff none, each with the source's message; brand is never a key |
| ListItem.ValidIff | app/list-item/page.tsx:98-99 | the listing is valid iff all of those conditions hold |
| ListItem.WholeAmounts | app/list-item/page.tsx:80 | a whole-number amount is accepted iff above zero, so "0" and every negative whole number are rejected |
| ListItem.HandleChange | app/list-item/page.tsx:36-48 | the edited field takes the value, the photos are untouched, only that field's error can disappear |
| ListItem.AddPhoto | app/list-item/page.tsx:307 | a photo is appended while fewer than six are attached (the control is hidden at six), so the list never exceeds six |
| ListItem.RemovePhoto | app/list-item/page.tsx:148-150 | an in-range index drops exactly that photo, keeps the others in order and shortens the list by one; any other index changes nothing |
| ListItem.RemoveOnlyPhoto | app/list-item/page.tsx:94-96 | after the only photo is removed, the next validation reports the "photos" error (removing a photo does not itself touch the errors shown) |
| ListItem.Submit | app/list-item/page.tsx:102-146 | the page moves on iff the form is valid, a user is signed in and the write succeeds; then exactly one listing is appended after the unchanged earlier ones, carrying the user's id and the parsed (positive) fee and deposit; otherwise the store is untouched and the errors shown are the validation errors (none when the form is valid but nobody is signed in) or the write-failure message |
| MyListings.UserListings | app/profile/listings/page.tsx:42-46 | the shown listings are exactly the stored ones with the user's id, each as often as stored; an absent store reads as empty |
| MyListings.WithoutId | app/profile/listings/page.tsx:65 | deleting removes every listing with that id and keeps every other listing, other users' included |
| MyListings.KeepStoredOrder | app/profile/listings/page.tsx:46 | both the owner view and deletion keep the stored order |
| MyListings.DeleteAbsentId | app/profile/listings/page.tsx:65 | deleting an id that no listing carries leaves the store unchanged |
| MyListings.HandleDelete | app/profile/listings/page.tsx:58-75 | when storage works, the store is written back without the id and the shown list loses the id; when it throws, neither changes |
| MyListings.DeleteKeepsViewInSync | app/profile/listings/page.tsx:59-74 | if the shown list is the user's slice of the store before a delete, it still is afterwards, whether or not the write goes through |
| MyListings.SubmittedListingIsShown | app/list-item/page.tsx:128-135 | after a successful submit the new listing appears last on its owner's listings page, after the unchanged earlier ones |
| Browse.FilteredItems | app/browse/page.tsx:159-174 | an item is in the result iff it is in the catalogue and meets search, size, category and price; the result is a permutation of the matching items, ordered by the chosen comparator |
| Browse.FilteredItemsStable | app/browse/page.tsx:159-174 | among the matching items, those that tie under the chosen comparator (same price, or same id) come out in their catalogue order |
| Browse.PriceLowAscending | app/browse/page.tsx:170 | "price-low" gives non-decreasing prices |
| Browse.PriceHighDescending | app/browse/page.tsx:171 | "price-high" gives non-increasing prices |
| Browse.NewestFirst | app/browse/page.tsx:172-173 | any other sort value gives strictly decreasing ids when catalogue ids are distinct |
| Browse.SearchIgnoresCase | app/browse/page.tsx:160-162 | lower-casing the search text never changes which items match |
| Browse.EmptySearchHitsAll | app/browse/page.tsx:160-162 | the empty search text matches every name and brand |
| Browse.DefaultFiltersMatchByPrice | app/browse/page.tsx:164-166 | with empty search, size and category and the range 0..30 (inclusive), an item matches iff its price is within 0..30 |
| Browse.InitialShowsWholeCatalogue | app/browse/page.tsx:151-157 | in the initial state all twelve demonstration items pass the filters |
| Browse.InitialShowsFirstPage | app/browse/page.tsx:157 | in the initial state exactly six cards, one page, are shown |
| Browse.Shown | app/browse/page.tsx:380-386 | the cards shown are a prefix of the results of length min(visible, results), which is also the N of "Showing N of M" |
| Browse.LoadMore | app/browse/page.tsx:176-178 | while fewer than all results are visible, a click strictly increases the visible count by at most six and never past the total |
| Browse.LoadMoreRevealsAll | app/browse/page.tsx:409 | ceil((total - visible) / 6) clicks of Load More reveal every result |
| Browse.HandleLoadMore | app/browse/page.tsx:176-178 | filters and sort are kept; when the button is offered more cards are shown afterwards; a click reveals at most six more cards and never sets the count past the number of results (`Math.min(prev + 6, filteredItems.length)`) |
| Browse.Reset | app/browse/page.tsx:352-357 | the filters return to the defaults (an item then matches iff its price is in 0..30); sort and visible count are kept |
| BrowseSection.VisibleAsWritten | components/browse-section.tsx:78-85 | an item is shown iff its name or brand contains the search text case-insensitively and the size value is "" or equals its size |
| BrowseSection.InitiallyAllShown | components/browse-section.tsx:75-76 | with the initial empty search and size, every item is shown, in order |
| BrowseSection.KeepsSampleOrder | components/browse-section.tsx:78 | the shown items keep the sample list's order |
| BrowseSection.AllSizesShowsNothing | components/browse-section.tsx:82 | choosing "All Sizes" (value "all") shows no items, whatever the search, when no item's size is "all" |
| BrowseSection.SampleGoesBlank | components/browse-section.tsx:11-72 | none of the six sample items has size "all", so the first size option, "All Sizes", empties the section |
| BrowseSection.Visible | components/browse-section.tsx:82 | corrected filter: an item is shown iff the search hits and the size is "", "all" or its own size |
| BrowseSection.AllSizesMeansAnySize | components/browse-section.tsx:103-114 | with the correction, "All Sizes" shows exactly what no size choice shows |
| BrowseSection.AllSizesShowsEverything | components/browse-section.tsx:82 | with the correction, "All Sizes" and an empty search show every item |
| BrowseSection.OtherSizesUnchanged | components/browse-section.tsx:109-113 | the correction changes nothing for any other size value |
| Faq.ItemKeyInjective | app/faq/page.tsx:91 | distinct (section, item) pairs of non-negative indices have distinct keys |
| Faq.Toggle | app/faq/page.tsx:90-96 | the toggled answer's open state flips and every other key keeps its entry |
| Faq.ToggleOthersUnchanged | app/faq/page.tsx:114 | toggling one answer never changes whether another answer is shown |
| Faq.ToggleTwice | app/faq/page.tsx:94 | toggling the same answer twice restores whether every answer is shown |
| Faq.FirstToggleOpensOne | app/faq/page.tsx:88 | every answer starts closed; after one toggle exactly the toggled answer is open |
| Profile.HandleSubmit | app/profile/page.tsx:75-97 | a blank name fails with "Full name is required" before anything else, then a blank phone with "Phone number is required"; success iff both are filled, a user is signed in and the update succeeds, which shows the success line, leaves edit mode and stores the submitted values; with no user the error is "Not authenticated", a remote error shows its message (or "Profile update failed" when empty), a thrown update shows the context's exception message; any failure changes nothing else |
| Profile.FailureMessage | app/profile/page.tsx:87 | the context's error is shown when it is non-empty, and "Profile update failed" exactly when it is missing or empty |
| Profile.InstagramNeverRequired | app/profile/page.tsx:82-85 | the instagram value never changes the outcome's messages or edit mode |
| Profile.Cancel | app/profile/page.tsx:164-171 | leaves edit mode and resets the form to the user's name, phone and instagram, with "" for missing values |
| Profile.CancelForgetsEdits | app/profile/page.tsx:164-171 | whatever was typed into the form before Cancel has no effect on the view Cancel produces |
| Profile.SavedValuesReload | app/profile/page.tsx:38-46 | after a successful save the form, and a later Cancel, show exactly the submitted values |
| Auth.UserFromSession | hooks/useAuth.tsx:61-69 | the id is copied; email, full name, phone and instagram are copied when present and become '' when missing, whether the metadata or only the field is missing; createdAt is undefined |
| Auth.SignUpRoundTrip | hooks/useAuth.tsx:170-176 | a user read back from the session sign-up creates has exactly the registered fields |
| Auth.OnSession | hooks/useAuth.tsx:59-74 | a session gives its user and no session gives null, so `isAuthenticated` (`!!user`, line 254) holds iff a session exists; the user carries the session's id |
| Auth.SignIn | hooks/useAuth.tsx:130-157 | sign-in succeeds iff the service returns a user and no error and saving that user to storage succeeds; a rejected attempt reports the service's message, or 'Login failed' when it is missing or empty, or 'An error occurred during sign in' when the call throws, and keeps the previous user; when the service returns a user the context holds that session's user, even if the storage write then throws and the attempt is reported as 'An error occurred during sign in' |
| Auth.SignInAgreesWithSession | hooks/useAuth.tsx:141-150 | a sign-in the service accepts sets exactly the user the session handler (lines 61-69) derives from the same session, so the context is then authenticated, whether or not the storage write succeeds |
| Auth.UpdateProfile | hooks/useAuth.tsx:200-247 | with no user it fails with 'Not authenticated'; a remote error is passed on and a thrown call gives 'An error occurred during profile update', the user kept in both; on success only name, phone and instagram change, an absent instagram becoming '' |
| Auth.UpdateAgreesWithSession | hooks/useAuth.tsx:218-240 | after a successful update the local user equals what reading back the sent metadata gives |
| Auth.LogSessionEnd | hooks/useAuth.tsx:117-127 | with no (or an empty) stored session id nothing happens; otherwise that session is closed and the id cleared |
| Auth.LogSessionEndIdempotent | hooks/useAuth.tsx:118-126 | ending twice closes the session once |
| Text.BlankIffAllWhitespace | components/sign-up-modal.tsx:50 | `!s.trim()` holds iff every character is whitespace |
| Text.ContainsIffOccurs | app/browse/page.tsx:160-162 | the `includes` scan used by the search finds the text exactly when it occurs at some position of the name or brand |
| Text.DigitsKeepsOnlyDigits | components/sign-up-modal.tsx:81 | stripping non-digits leaves a digit string unchanged and empties a string without digits |
| Text.ParseNumberOfNat | app/list-item/page.tsx:80 | `Number` of a whole number's decimal text is that number |
| Text.ParseNumberOfNegated | app/list-item/page.tsx:80 | `Number` of "-" followed by a whole number's text is its negation |
| Seqs.Filter | app/browse/page.tsx:159 | `filter` keeps exactly the elements satisfying the predicate and never lengthens the list |
| Seqs.FilterCount | app/profile/listings/page.tsx:46 | each kept element occurs as often as in the input, every other element not at all |
| Seqs.FilterFilter | app/profile/listings/page.tsx:46 | two filters commute and compose to their conjunction |
| Seqs.FilterIsSubsequence | components/browse-section.tsx:78 | `filter` keeps relative order |
| Seqs.SortBy | app/browse/page.tsx:169 | the comparator sort returns a permutation ordered by the key |
| Seqs.SortByStable | app/browse/page.tsx:169-174 | the sort is stable: the elements sharing any one key come out in their input order, as JavaScript's `sort` guarantees |

## Left out

- Rental flow: renting, returning, availability and fees are not in the modelled code (the item page app/item/[id]/page.tsx is not part of this model), so nothing of a rental engine is modelled.
- Hosted services and storage: every call to the auth service, the database and `localStorage` is replaced by the value it returned, passed in as a parameter (`RemoteOutcome`, `SignInResponse`, `Option<seq<Listing>>`, `writeSucceeds`, `storeSucceeds`). JSON parsing and stringifying are identity on the stored list.
- Profile listings query (app/profile/page.tsx:48-68) and the analytics hooks and components: network fetches and timers only.
- Randomness and time: the listing id (`Math.random`) and `createdAt` (`new Date()`) are parameters of `ListItem.Submit`.
- Authentication redirects, loading flags and `isSubmitting`: React effects and rendering, not rules.
- FileReader photo upload: the file reading itself is I/O; `ListItem.AddPhoto` takes the resulting data URL.
- ListItem.AmountError: the fee and deposit inputs are `type="number"` (app/list-item/page.tsx:250, 265), so a value such as "1e3" can reach the validator; `Number("1e3")` is 1000 and the page accepts it, while the model, whose `Number` reads no exponent, rejects it as not positive.
- Text.ParseNumber: models `Number` on decimal literals only; exponents, the hexadecimal, binary and octal prefixes (`0x`, `0b`, `0o`), "Infinity" and the rounding of very long literals to a double are not modelled (exact rationals are used).
- Text.ToLower: lower-cases ASCII letters only; JavaScript's full Unicode case mapping is not modelled.
- Browse.NewestFirst: requires distinct catalogue ids; the demonstration catalogue's ids 1 to 12 are distinct.
- Auth.SignIn: the exception branch's message is modelled; the exception object itself is not. Which step threw is reduced to two cases: the service call itself (`SignInThrew`) and the storage write after the user is set (`storeSucceeds`).
- Profile.HandleSubmit: the `instanceof Error` fallback "An unexpected error occurred" is unreachable here, because every failure path raises an `Error`.
- `signUp` and `signOut` in the auth context: only the metadata `signUp` registers is modelled (`Auth.ProfileMetadata`); the calls themselves are remote.

## Findings

| source | as written | input that shows it | evidently intended | confidence | as-written member | corrected member |
|---|---|---|---|---|---|---|
| components/browse-section.tsx:82 | the size test treats only "" as "every size", but the "All Sizes" entry (line 108) sets the value "all" | choose "All Sizes" in the size select: no item has size "all", so the section shows nothing | "All Sizes" shows every item that matches the search | not executed | BrowseSection.SampleGoesBlank | BrowseSection.AllSizesShowsEverything |

=== FILE: account_rules.dfy ===
/** The field rules shared, line for line, by the sign-up and sign-in validators
    (components/sign-up-modal.tsx and components/sign-in-modal.tsx). Each rule yields
    the field's error message, or None when the field is acceptable. */
module AccountRules {
  import opened Options
  import opened Text

  const EmailDomain := "@stanford.edu"
  const MinPasswordLength := 8
  const PhoneDigitCount := 10

  const NameRequired := "Name is required"
  const EmailRequired := "Email is required"
  const EmailWrongDomain := "Only @stanford.edu email addresses are allowed"
  const InstagramNeedsAt := "Instagram handle should start with @"
  const PasswordRequired := "Password is required"
  const PasswordTooShort := "Password must be at least 8 characters"
  const PhoneRequired := "Phone number is required"
  const PhoneInvalid := "Please enter a valid 10-digit phone number"

  /** A name is required: anything but whitespace is accepted. */
  function NameError(name: string): (e: Option<string>)
    ensures e.None? <==> exists i :: 0 <= i < |name| && !IsWhitespace(name[i])
    ensures e.Some? ==> e.value == NameRequired
  {
    BlankIffAllWhitespace(name);
    if IsBlank(name) then Some(NameRequired) else None
  }

  /** The email must end with the university domain; the "required" message is kept for
      blank input, so a field never carries both messages. */
  function EmailError(email: string): (e: Option<string>)
    ensures e.None? <==> EndsWith(email, EmailDomain)
    ensures e == Some(EmailRequired) <==> IsBlank(email)
    ensures e.Some? ==> e.value == EmailRequired || e.value == EmailWrongDomain
  {
    DomainSuffixIsNotBlank(email);
    if IsBlank(email) then Some(EmailRequired)
    else if !EndsWith(email, EmailDomain) then Some(EmailWrongDomain)
    else None
  }

  /** An address that ends with the domain has a non-whitespace last character. */
  lemma DomainSuffixIsNotBlank(email: string)
    ensures EndsWith(email, EmailDomain) ==> !IsBlank(email)
  {
    if EndsWith(email, EmailDomain) {
      var last := |email| - 1;
      assert email[last] == EmailDomain[|EmailDomain| - 1] == 'u';
      BlankIffAllWhitespace(email);
    }
  }

  /** Instagram is optional; when given (not blank) the raw value must start with "@". */
  function InstagramError(instagram: string): (e: Option<string>)
    ensures e.None? <==> IsBlank(instagram) || StartsWith(instagram, "@")
    ensures e.Some? ==> e.value == InstagramNeedsAt
  {
    if !IsBlank(instagram) && !StartsWith(instagram, "@") then Some(InstagramNeedsAt) else None
  }

  /** The password needs at least eight UTF-16 code units; the empty one gets its own message. */
  function PasswordError(password: string): (e: Option<string>)
    ensures e.None? <==> Utf16Length(password) >= MinPasswordLength
    ensures e == Some(PasswordRequired) <==> password == ""
    ensures e.Some? ==> e.value == PasswordRequired || e.value == PasswordTooShort
  {
    if password == "" then Some(PasswordRequired)
    else if Utf16Length(password) < MinPasswordLength then Some(PasswordTooShort)
    else None
  }

  /** The phone is accepted exactly when stripping every non-digit leaves ten digits,
      whatever punctuation or spacing surrounds them. */
  function PhoneError(phone: string): (e: Option<string>)
    ensures e.None? <==> |Digits(phone)| == PhoneDigitCount
    ensures e == Some(PhoneRequired) <==> IsBlank(phone)
    ensures e.Some? ==> e.value == PhoneRequired || e.value == PhoneInvalid
  {
    if IsBlank(phone) then
      BlankHasNoDigits(phone);
      Some(PhoneRequired)
    else if !IsTenDigits(Digits(phone)) then Some(PhoneInvalid)
    else None
  }

  /** The placeholder shown in the phone field, "(650) 123-4567", is itself accepted. */
  lemma PlaceholderPhoneAccepted()
    ensures PhoneError("(650) 123-4567") == None
  {
    var p := "(650) 123-4567";
    assert p == "(" + "650" + ") " + "123" + "-" + "4567";
    assert Digits("(") == [] && Digits(") ") == [] && Digits("-") == [];
    DigitsOfPunctuatedGroups("(", "650", ") ", "123", "-", "4567");
    assert |Digits(p)| == 10;
  }

  /** Digit groups separated by punctuation: stripping keeps exactly the groups. */
  lemma DigitsOfPunctuatedGroups(a: string, b: string, c: string, d: string, e: string, f: string)
    requires Digits(a) == [] && Digits(c) == [] && Digits(e) == []
    requires AllDigits(b) && AllDigits(d) && AllDigits(f)
    ensures Digits(a + b + c + d + e + f) == b + d + f
  {
    DigitsKeepsOnlyDigits(b);
    DigitsKeepsOnlyDigits(d);
    DigitsKeepsOnlyDigits(f);
    var x1 := a + b;
    DigitsAppend(a, b);
    var x2 := x1 + c;
    DigitsAppend(x1, c);
    assert Digits(x2) == b;
    var x3 := x2 + d;
    DigitsAppend(x2, d);
    var x4 := x3 + e;
    DigitsAppend(x3, e);
    assert Digits(x4) == b + d;
    DigitsAppend(x4, f);
  }
}

=== FILE: auth.dfy ===
/** The authentication context (hooks/useAuth.tsx) as state-to-state functions. Every call to
    the hosted auth service is replaced by the outcome it returned, passed in as a value. */
module Auth {
  import opened Options

  /** The `user_metadata` a session user may carry; any field may be missing. */
  datatype Metadata = Metadata(fullName: Option<string>, phone: Option<string>, instagram: Option<string>)

  /** The parts of the auth service's session user the app reads. */
  datatype SessionUser = SessionUser(id: string, email: Option<string>, metadata: Option<Metadata>)

  /** The app's `User` record. */
  datatype User = User(id: string, name: string, email: string, phone: string,
                       instagram: Option<string>, createdAt: Option<string>)

  /** `{ success, error? }` as the context's operations return it. */
  datatype AuthResult = AuthResult(success: bool, error: Option<string>)

  /** `v || ''` on an optional string: a missing value (or the empty string) becomes ''. */
  function OrEmpty(v: Option<string>): (r: string)
    ensures v.None? ==> r == ""
    ensures v.Some? ==> r == v.value
  {
    v.GetOr("")
  }

  function MetaName(u: SessionUser): Option<string> {
    if u.metadata.Some? then u.metadata.value.fullName else None
  }

  function MetaPhone(u: SessionUser): Option<string> {
    if u.metadata.Some? then u.metadata.value.phone else None
  }

  function MetaInstagram(u: SessionUser): Option<string> {
    if u.metadata.Some? then u.metadata.value.instagram else None
  }

  /** The session-to-`User` mapping: the id is copied, name, email, phone and instagram fall
      back to '' when missing, and `createdAt` is left undefined. */
  function UserFromSession(u: SessionUser): (user: User)
    ensures user.id == u.id
    ensures user.email == (if u.email.Some? then u.email.value else "")
    ensures user.name ==
      (if u.metadata.Some? && u.metadata.value.fullName.Some? then u.metadata.value.fullName.value else "")
    ensures user.phone ==
      (if u.metadata.Some? && u.metadata.value.phone.Some? then u.metadata.value.phone.value else "")
    ensures user.instagram ==
      Some(if u.metadata.Some? && u.metadata.value.instagram.Some? then u.metadata.value.instagram.value else "")
    ensures u.metadata.None? ==> user.name == "" && user.phone == "" && user.instagram == Some("")
    ensures user.createdAt.None?
  {
    User(u.id, OrEmpty(MetaName(u)), OrEmpty(u.email), OrEmpty(MetaPhone(u)),
         Some(OrEmpty(MetaInstagram(u))), None)
  }

  /** The metadata `signUp` registers and `updateProfile` sends: the name as `full_name`, the
      phone, and the instagram handle or ''. */
  function ProfileMetadata(name: string, phone: string, instagram: Option<string>): Metadata {
    Metadata(Some(name), Some(phone), Some(OrEmpty(instagram)))
  }

  /** A user read back from the session `signUp` created has exactly the registered fields,
      an instagram of '' when none was given, and no `createdAt`. */
  lemma SignUpRoundTrip(id: string, name: string, email: string, phone: string, instagram: Option<string>)
    ensures UserFromSession(SessionUser(id, Some(email), Some(ProfileMetadata(name, phone, instagram)))) ==
      User(id, name, email, phone, Some(OrEmpty(instagram)), None)
  {
  }

  /** `isAuthenticated: !!user` */
  predicate IsAuthenticated(user: Option<User>) {
    user.Some?
  }

  /** The `onAuthStateChange` / `getSession` handler: a session gives a user, none gives null,
      so the context is authenticated exactly while a session exists. */
  function OnSession(session: Option<SessionUser>): (user: Option<User>)
    ensures IsAuthenticated(user) <==> session.Some?
    ensures user.Some? ==> user.value.id == session.value.id
  {
    match session
    case Some(u) => Some(UserFromSession(u))
    case None => None
  }

  /** What `signInWithPassword` came back with: an error message, a user, both or neither;
      or the call threw. */
  datatype SignInResponse = SignInResponse(error: Option<string>, user: Option<SessionUser>) | SignInThrew

  /** `signIn`: returns the result and the context's user afterwards. A failed attempt reports
      the service's message (or 'Login failed' when it has none) and leaves the user as it was.
      `storeSucceeds` says whether saving the signed-in user to `localStorage` went through; that
      write comes after the user is set, so when it throws the attempt is reported as failed while
      the context already holds the new user. */
  function SignIn(current: Option<User>, response: SignInResponse, storeSucceeds: bool): (r: (AuthResult, Option<User>))
    ensures r.0.success <==>
      response.SignInResponse? && response.error.None? && response.user.Some? && storeSucceeds
    ensures !r.0.success ==> r.0.error.Some? && r.0.error.value != ""
    ensures !(response.SignInResponse? && response.error.None? && response.user.Some?) ==> r.1 == current
    ensures response.SignInThrew? ==> r.0.error == Some("An error occurred during sign in")
    ensures response.SignInResponse? && response.error.Some? ==>
      r.0.error == Some(if response.error.value != "" then response.error.value else "Login failed")
    ensures response.SignInResponse? && response.error.None? && response.user.None? ==>
      r.0.error == Some("Login failed")
    ensures response.SignInResponse? && response.error.None? && response.user.Some? ==>
      r.1 == Some(UserFromSession(response.user.value))
    ensures response.SignInResponse? && response.error.None? && response.user.Some? && !storeSucceeds ==>
      r.0.error == Some("An error occurred during sign in")
    ensures r.0.success ==> r.0.error.None?
  {
    match response
    case SignInThrew => (AuthResult(false, Some("An error occurred during sign in")), current)
    case SignInResponse(error, user) =>
      if error.Some? || user.None? then
        (AuthResult(false, Some(if error.Some? && error.value != "" then error.value else "Login failed")),
         current)
      else if !storeSucceeds then
        (AuthResult(false, Some("An error occurred during sign in")), Some(UserFromSession(user.value)))
      else
        (AuthResult(true, None), Some(UserFromSession(user.value)))
  }

  /** Signing in sets the same user the session handler derives from that session: the two
      mappings in the context agree, even when saving the user afterwards fails. */
  lemma SignInAgreesWithSession(current: Option<User>, u: SessionUser, storeSucceeds: bool)
    ensures SignIn(current, SignInResponse(None, Some(u)), storeSucceeds).1 == OnSession(Some(u))
    ensures IsAuthenticated(SignIn(current, SignInResponse(None, Some(u)), storeSucceeds).1)
  {
  }

  /** The fields `updateProfile` receives. */
  datatype ProfileUpdate = ProfileUpdate(name: string, phone: string, instagram: Option<string>)

  /** What the remote `updateUser` call came back with. */
  datatype RemoteOutcome = RemoteOk | RemoteError(message: string) | RemoteThrew

  /** `updateProfile`: returns the result and the context's user afterwards. Only a signed-in
      user with a successful remote update changes, and then only name, phone and instagram. */
  function UpdateProfile(current: Option<User>, data: ProfileUpdate, remote: RemoteOutcome): (r: (AuthResult, Option<User>))
    ensures current.None? ==> r == (AuthResult(false, Some("Not authenticated")), None)
    ensures current.Some? && remote.RemoteError? ==>
      r == (AuthResult(false, Some(remote.message)), current)
    ensures current.Some? && remote.RemoteThrew? ==>
      r == (AuthResult(false, Some("An error occurred during profile update")), current)
    ensures r.0.success <==> current.Some? && remote.RemoteOk?
    ensures !r.0.success ==> r.1 == current
    ensures r.0.success ==>
      && r.1.Some?
      && r.1.value.id == current.value.id
      && r.1.value.email == current.value.email
      && r.1.value.createdAt == current.value.createdAt
      && r.1.value.name == data.name
      && r.1.value.phone == data.phone
      && r.1.value.instagram == Some(OrEmpty(data.instagram))
  {
    match current
    case None => (AuthResult(false, Some("Not authenticated")), None)
    case Some(user) =>
      match remote
      case RemoteThrew => (AuthResult(false, Some("An error occurred during profile update")), current)
      case RemoteError(message) => (AuthResult(false, Some(message)), current)
      case RemoteOk =>
        (AuthResult(true, None),
         Some(user.(name := data.name, phone := data.phone, instagram := Some(OrEmpty(data.instagram)))))
  }

  /** After a successful update the local user is what reading the updated session back would
      give (apart from `createdAt`): the local merge and the metadata sent agree. */
  lemma UpdateAgreesWithSession(current: Option<User>, data: ProfileUpdate, remote: RemoteOutcome)
    requires UpdateProfile(current, data, remote).0.success
    ensures var u := current.value;
      UpdateProfile(current, data, remote).1 ==
        Some(UserFromSession(SessionUser(u.id, Some(u.email),
                                         Some(ProfileMetadata(data.name, data.phone, data.instagram))))
               .(createdAt := u.createdAt))
  {
  }

  /** `logSessionEnd`: with an active session id stored, that session is closed and the id
      cleared; with none (or an empty one) nothing happens. Returns the stored id afterwards
      and the session that was closed, if any. */
  function LogSessionEnd(activeSessionId: Option<string>): (r: (Option<string>, Option<string>))
    ensures activeSessionId.None? || activeSessionId == Some("") ==> r == (activeSessionId, None)
    ensures activeSessionId.Some? && activeSessionId.value != "" ==> r == (None, activeSessionId)
  {
    if activeSessionId.None? || activeSessionId.value == "" then (activeSessionId, None)
    else (None, activeSessionId)
  }

  /** Ending a session twice closes it once: the second call finds nothing stored. */
  lemma LogSessionEndIdempotent(activeSessionId: Option<string>)
    ensures LogSessionEnd(LogSessionEnd(activeSessionId).0).1 == None
    ensures LogSessionEnd(LogSessionEnd(activeSessionId).0).0 == LogSessionEnd(activeSessionId).0
  {
  }
}

=== FILE: browse.dfy ===
/** The browse page (app/browse/page.tsx): filtering the demonstration catalogue by search
    text, size, category and price range, sorting it, and showing it six at a time. */
module Browse {
  import opened Text
  import opened Seqs

  /** A catalogue entry; the image and owner fields are display-only and not modelled. */
  datatype CatalogItem = CatalogItem(id: int, name: string, brand: string, size: string,
                                     category: string, price: int, deposit: int)

  /** The twelve demonstration items, in source order. */
  const SampleItems: seq<CatalogItem> := [
    CatalogItem(1, "Formal Dress", "Reformation", "S", "formal", 15, 50),
    CatalogItem(2, "Blazer", "J.Crew", "M", "formal", 12, 40),
    CatalogItem(3, "Winter Coat", "Patagonia", "L", "outerwear", 20, 80),
    CatalogItem(4, "Cocktail Dress", "Zara", "XS", "formal", 18, 45),
    CatalogItem(5, "Suit", "Hugo Boss", "L", "formal", 25, 100),
    CatalogItem(6, "Denim Jacket", "Levi's", "M", "casual", 10, 30),
    CatalogItem(7, "Athletic Shorts", "Nike", "M", "athletic", 8, 20),
    CatalogItem(8, "Summer Dress", "H&M", "S", "casual", 12, 35),
    CatalogItem(9, "Wool Sweater", "Uniqlo", "L", "casual", 14, 40),
    CatalogItem(10, "Leather Jacket", "AllSaints", "M", "outerwear", 30, 120),
    CatalogItem(11, "Silk Blouse", "Everlane", "S", "casual", 16, 45),
    CatalogItem(12, "Running Shoes", "Adidas", "US 9", "athletic", 15, 60)
  ]

  /** The filter controls; "" for size or category means "all". */
  datatype Filters = Filters(search: string, size: string, category: string, low: int, high: int)

  /** What Reset Filters (and Clear Filters) restores; also the initial filters. */
  const DefaultFilters := Filters("", "", "", 0, 30)

  /** Items are revealed in pages of this many. */
  const PageSize := 6

  /** The page's state: filters, the sort choice and how many items may be shown. */
  datatype View = View(filters: Filters, sortBy: string, visible: nat)

  const Initial := View(DefaultFilters, "newest", PageSize)

  /** Case-insensitive substring search over a name or a brand. */
  predicate SearchHit(name: string, brand: string, term: string) {
    Contains(ToLower(name), ToLower(term)) || Contains(ToLower(brand), ToLower(term))
  }

  predicate MatchesSearch(item: CatalogItem, term: string) {
    SearchHit(item.name, item.brand, term)
  }

  /** The empty search text matches everything. */
  lemma EmptySearchHitsAll(name: string, brand: string)
    ensures SearchHit(name, brand, "")
  {
    assert ToLower("") == "";
    ContainsEmpty(ToLower(name));
  }

  predicate Matches(f: Filters, item: CatalogItem) {
    && MatchesSearch(item, f.search)
    && (f.size == "" || item.size == f.size)
    && (f.category == "" || item.category == f.category)
    && f.low <= item.price <= f.high
  }

  function Matcher(f: Filters): CatalogItem -> bool {
    (item: CatalogItem) => Matches(f, item)
  }

  /** The comparator as an ascending key: `a.price - b.price` for "price-low",
      `b.price - a.price` for "price-high", and `b.id - a.id` (newest first) otherwise. */
  function SortKey(sortBy: string): CatalogItem -> int {
    if sortBy == "price-low" then (item: CatalogItem) => item.price
    else if sortBy == "price-high" then (item: CatalogItem) => -item.price
    else (item: CatalogItem) => -item.id
  }

  /** `filteredItems`: exactly the matching items, each as often as in the catalogue, in
      comparator order. */
  function FilteredItems(items: seq<CatalogItem>, f: Filters, sortBy: string): (r: seq<CatalogItem>)
    ensures forall x :: x in r <==> x in items && Matches(f, x)
    ensures forall x :: multiset(r)[x] == if Matches(f, x) then multiset(items)[x] else 0
    ensures SortedBy(r, SortKey(sortBy))
  {
    var matching := Filter(items, Matcher(f));
    FilterCount(items, Matcher(f));
    var r := SortBy(matching, SortKey(sortBy));
    SameElements(matching, r);
    r
  }

  /** Items that tie under the chosen order, for example two items with the same price, keep
      their catalogue order, since the comparator sort is stable. */
  lemma FilteredItemsStable(items: seq<CatalogItem>, f: Filters, sortBy: string, k: int)
    ensures Filter(FilteredItems(items, f, sortBy), KeyIs(SortKey(sortBy), k)) ==
            Filter(Filter(items, Matcher(f)), KeyIs(SortKey(sortBy), k))
  {
    SortByStable(Filter(items, Matcher(f)), SortKey(sortBy), k);
  }

  /** "Price: Low to High" lists prices in non-decreasing order. */
  lemma PriceLowAscending(items: seq<CatalogItem>, f: Filters)
    ensures var r := FilteredItems(items, f, "price-low");
      forall i, j :: 0 <= i < j < |r| ==> r[i].price <= r[j].price
  {
    var r := FilteredItems(items, f, "price-low");
    forall i, j | 0 <= i < j < |r| ensures r[i].price <= r[j].price {
      assert SortKey("price-low")(r[i]) <= SortKey("price-low")(r[j]);
    }
  }

  /** "Price: High to Low" lists prices in non-increasing order. */
  lemma PriceHighDescending(items: seq<CatalogItem>, f: Filters)
    ensures var r := FilteredItems(items, f, "price-high");
      forall i, j :: 0 <= i < j < |r| ==> r[i].price >= r[j].price
  {
    var r := FilteredItems(items, f, "price-high");
    forall i, j | 0 <= i < j < |r| ensures r[i].price >= r[j].price {
      assert SortKey("price-high")(r[i]) <= SortKey("price-high")(r[j]);
    }
  }

  predicate DistinctIds(s: seq<CatalogItem>) {
    forall i, j :: 0 <= i < j < |s| ==> s[i].id != s[j].id
  }

  /** With distinct ids every item occurs at most once. */
  lemma {:induction false} AtMostOnce(s: seq<CatalogItem>, x: CatalogItem)
    requires DistinctIds(s)
    ensures multiset(s)[x] <= 1
  {
    if s != [] {
      assert s == [s[0]] + s[1..];
      assert DistinctIds(s[1..]) by {
        forall i, j | 0 <= i < j < |s[1..]| ensures s[1..][i].id != s[1..][j].id {
          assert s[1..][i] == s[i + 1] && s[1..][j] == s[j + 1];
        }
      }
      AtMostOnce(s[1..], x);
      if s[0] == x {
        assert x !in s[1..];
      }
    }
  }

  /** An element found at two positions occurs at least twice. */
  lemma TwoPositions(t: seq<CatalogItem>, i: int, j: int)
    requires 0 <= i < j < |t|
    ensures t[i] == t[j] ==> multiset(t)[t[i]] >= 2
  {
    assert t == t[..j] + t[j..];
    assert t[i] in t[..j];
    assert t[j] in t[j..];
  }

  /** Any rearrangement of a sub-multiset of distinctly-numbered items is distinctly numbered. */
  lemma DistinctIdsOfSubMultiset(s: seq<CatalogItem>, t: seq<CatalogItem>)
    requires DistinctIds(s)
    requires forall x :: multiset(t)[x] <= multiset(s)[x]
    ensures DistinctIds(t)
  {
    forall i, j | 0 <= i < j < |t| ensures t[i].id != t[j].id {
      AtMostOnce(s, t[i]);
      TwoPositions(t, i, j);
      assert t[i] != t[j];
      assert multiset(s)[t[i]] > 0 && multiset(s)[t[j]] > 0;
      assert t[i] in s && t[j] in s;
      var p :| 0 <= p < |s| && s[p] == t[i];
      var q :| 0 <= q < |s| && s[q] == t[j];
      assert p != q;
    }
  }

  /** "Newest First" lists ids in strictly decreasing order when the catalogue's ids are distinct. */
  lemma NewestFirst(items: seq<CatalogItem>, f: Filters, sortBy: string)
    requires sortBy != "price-low" && sortBy != "price-high"
    requires DistinctIds(items)
    ensures var r := FilteredItems(items, f, sortBy);
      forall i, j :: 0 <= i < j < |r| ==> r[i].id > r[j].id
  {
    var r := FilteredItems(items, f, sortBy);
    DistinctIdsOfSubMultiset(items, r);
    forall i, j | 0 <= i < j < |r| ensures r[i].id > r[j].id {
      assert SortKey(sortBy)(r[i]) <= SortKey(sortBy)(r[j]);
    }
  }

  /** Searching is case-insensitive: lower-casing the search text changes nothing. */
  lemma SearchIgnoresCase(f: Filters, item: CatalogItem)
    ensures Matches(f.(search := ToLower(f.search)), item) == Matches(f, item)
  {
    ToLowerIdempotent(f.search);
  }

  /** With the default filters an item is shown exactly when its price is within 0..30. */
  lemma DefaultFiltersMatchByPrice(item: CatalogItem)
    ensures Matches(DefaultFilters, item) <==> 0 <= item.price <= 30
  {
    EmptySearchHitsAll(item.name, item.brand);
  }

  /** Initially all twelve demonstration items qualify. */
  lemma InitialShowsWholeCatalogue()
    ensures |FilteredItems(SampleItems, Initial.filters, Initial.sortBy)| == |SampleItems| == 12
  {
    forall i | 0 <= i < |SampleItems| ensures Matcher(DefaultFilters)(SampleItems[i]) {
      DefaultFiltersMatchByPrice(SampleItems[i]);
    }
    FilterKeepsAll(SampleItems, Matcher(DefaultFilters));
    var r := FilteredItems(SampleItems, Initial.filters, Initial.sortBy);
    assert |multiset(r)| == |multiset(SampleItems)|;
  }

  /** Initially the first page of six cards is shown. */
  lemma InitialShowsFirstPage()
    ensures |Shown(SampleItems, Initial)| == PageSize
  {
    InitialShowsWholeCatalogue();
  }

  /** The items on screen: `filteredItems.slice(0, visibleItems)`, a prefix of the results.
      Their number is also the N of the "Showing N of M" line,
      `Math.min(visibleItems, filteredItems.length)`. */
  function Shown(items: seq<CatalogItem>, v: View): (r: seq<CatalogItem>)
    ensures r <= FilteredItems(items, v.filters, v.sortBy)
    ensures |r| == if v.visible < |FilteredItems(items, v.filters, v.sortBy)| then v.visible
                   else |FilteredItems(items, v.filters, v.sortBy)|
  {
    Take(FilteredItems(items, v.filters, v.sortBy), v.visible)
  }

  /** The Load More button is offered only while more results exist than may be shown. */
  predicate CanLoadMore(items: seq<CatalogItem>, v: View) {
    v.visible < |FilteredItems(items, v.filters, v.sortBy)|
  }

  /** `loadMore`: `Math.min(prev + 6, filteredItems.length)`. While the button is offered each
      click reveals between one and six more items, never more than there are. */
  function LoadMore(visible: nat, total: nat): (r: nat)
    ensures visible < total ==> visible < r <= total && r <= visible + PageSize
    ensures total <= visible ==> r == total
  {
    if visible + PageSize < total then visible + PageSize else total
  }

  /** Clicking Load More `k` times. */
  function LoadMoreTimes(visible: nat, total: nat, k: nat): nat
    decreases k
  {
    if k == 0 then visible else LoadMoreTimes(LoadMore(visible, total), total, k - 1)
  }

  /** From any point at or below the total, ceil((total - visible) / 6) clicks reveal all results. */
  lemma {:induction false} LoadMoreRevealsAll(visible: nat, total: nat)
    requires visible <= total
    ensures LoadMoreTimes(visible, total, (total - visible + PageSize - 1) / PageSize) == total
    decreases total - visible
  {
    var k := (total - visible + PageSize - 1) / PageSize;
    if k > 0 {
      var next := LoadMore(visible, total);
      LoadMoreRevealsAll(next, total);
      assert (total - next + PageSize - 1) / PageSize == k - 1;
    }
  }

  /** The page's Load More handler on a view. */
  function HandleLoadMore(items: seq<CatalogItem>, v: View): (r: View)
    ensures r.filters == v.filters && r.sortBy == v.sortBy
    ensures CanLoadMore(items, v) ==> |Shown(items, v)| < |Shown(items, r)|
    ensures |Shown(items, r)| <= |Shown(items, v)| + PageSize
    ensures r.visible <= |FilteredItems(items, v.filters, v.sortBy)|
  {
    v.(visible := LoadMore(v.visible, |FilteredItems(items, v.filters, v.sortBy)|))
  }

  /** Reset Filters / Clear Filters: every filter back to its default. The sort choice and the
      number of visible items are kept. */
  function Reset(v: View): (r: View)
    ensures r.sortBy == v.sortBy && r.visible == v.visible
    ensures forall item :: Matches(r.filters, item) <==> 0 <= item.price <= 30
  {
    forall item ensures Matches(DefaultFilters, item) <==> 0 <= item.price <= 30 {
      DefaultFiltersMatchByPrice(item);
    }
    v.(filters := DefaultFilters)
  }
}

=== FILE: browse_section.dfy ===
/** The home page's browse section (components/browse-section.tsx): six demonstration items
    filtered by search text and a size select. */
module BrowseSection {
  import opened Seqs
  import Browse

  /** A demonstration item; the image and owner fields are display-only and not modelled. */
  datatype SectionItem = SectionItem(id: int, name: string, brand: string, size: string,
                                     price: int, deposit: int)

  const SectionItems: seq<SectionItem> := [
    SectionItem(1, "Formal Dress", "Reformation", "S", 15, 50),
    SectionItem(2, "Blazer", "J.Crew", "M", 12, 40),
    SectionItem(3, "Winter Coat", "Patagonia", "L", 20, 80),
    SectionItem(4, "Cocktail Dress", "Zara", "XS", 18, 45),
    SectionItem(5, "Suit", "Hugo Boss", "L", 25, 100),
    SectionItem(6, "Denim Jacket", "Levi's", "M", 10, 30)
  ]

  /** The values the size select offers; "all" is the "All Sizes" entry. */
  const SizeOptions: seq<string> := ["all", "XS", "S", "M", "L", "XL"]

  /** The filter as written: only the empty size (the initial state) means "every size". */
  predicate MatchesAsWritten(search: string, size: string, item: SectionItem) {
    Browse.SearchHit(item.name, item.brand, search) && (size == "" || item.size == size)
  }

  function AsWrittenMatcher(search: string, size: string): SectionItem -> bool {
    (item: SectionItem) => MatchesAsWritten(search, size, item)
  }

  /** The items the section renders out of `items` (the component always passes
      `SectionItems`), as the component computes them. */
  function VisibleAsWritten(items: seq<SectionItem>, search: string, size: string): (r: seq<SectionItem>)
    ensures forall x :: x in r <==> x in items && MatchesAsWritten(search, size, x)
  {
    Filter(items, AsWrittenMatcher(search, size))
  }

  /** Before any choice the section shows every item, in order. */
  lemma InitiallyAllShown(items: seq<SectionItem>)
    ensures VisibleAsWritten(items, "", "") == items
  {
    forall i | 0 <= i < |items| ensures AsWrittenMatcher("", "")(items[i]) {
      Browse.EmptySearchHitsAll(items[i].name, items[i].brand);
    }
    FilterKeepsAll(items, AsWrittenMatcher("", ""));
  }

  /** The section keeps the sample list's order. */
  lemma KeepsSampleOrder(items: seq<SectionItem>, search: string, size: string)
    ensures IsSubsequence(VisibleAsWritten(items, search, size), items)
  {
    FilterIsSubsequence(items, AsWrittenMatcher(search, size));
  }

  /** Choosing "All Sizes" stores "all"; when no item's size is "all" the section goes blank,
      whatever the search text. */
  lemma AllSizesShowsNothing(items: seq<SectionItem>, search: string)
    requires forall i :: 0 <= i < |items| ==> items[i].size != "all"
    ensures VisibleAsWritten(items, search, "all") == []
  {
    forall i | 0 <= i < |items| ensures !AsWrittenMatcher(search, "all")(items[i]) {
    }
    FilterKeepsNone(items, AsWrittenMatcher(search, "all"));
  }

  /** The six sample items all have a real size, so the first size option, "All Sizes",
      blanks the section. */
  lemma SampleGoesBlank(search: string)
    ensures |SectionItems| == 6 && SizeOptions[0] == "all"
    ensures VisibleAsWritten(SectionItems, search, SizeOptions[0]) == []
  {
    forall i | 0 <= i < |SectionItems| ensures SectionItems[i].size != "all" {
    }
    AllSizesShowsNothing(SectionItems, search);
  }

  /** The evidently intended filter: "all", like the initial "", means "every size". */
  predicate Matches(search: string, size: string, item: SectionItem) {
    Browse.SearchHit(item.name, item.brand, search) && (size == "" || size == "all" || item.size == size)
  }

  function Matcher(search: string, size: string): SectionItem -> bool {
    (item: SectionItem) => Matches(search, size, item)
  }

  function Visible(items: seq<SectionItem>, search: string, size: string): (r: seq<SectionItem>)
    ensures forall x :: x in r <==> x in items && Matches(search, size, x)
  {
    Filter(items, Matcher(search, size))
  }

  /** With the correction "All Sizes" shows exactly what no size choice shows. */
  lemma AllSizesMeansAnySize(items: seq<SectionItem>, search: string)
    ensures Visible(items, search, "all") == Visible(items, search, "")
  {
    forall i | 0 <= i < |items|
      ensures Matcher(search, "all")(items[i]) == Matcher(search, "")(items[i])
    {
    }
    SameFilter(items, Matcher(search, "all"), Matcher(search, ""));
  }

  /** With the correction, "All Sizes" and an empty search show every item. */
  lemma AllSizesShowsEverything(items: seq<SectionItem>)
    ensures Visible(items, "", "all") == items
  {
    forall i | 0 <= i < |items| ensures Matcher("", "all")(items[i]) {
      Browse.EmptySearchHitsAll(items[i].name, items[i].brand);
    }
    FilterKeepsAll(items, Matcher("", "all"));
  }

  /** The correction changes nothing for any other size value. */
  lemma OtherSizesUnchanged(items: seq<SectionItem>, search: string, size: string)
    requires size != "all"
    ensures Visible(items, search, size) == VisibleAsWritten(items, search, size)
  {
    forall i | 0 <= i < |items|
      ensures Matcher(search, size)(items[i]) == AsWrittenMatcher(search, size)(items[i])
    {
    }
    SameFilter(items, Matcher(search, size), AsWrittenMatcher(search, size));
  }
}

=== FILE: faq.dfy ===
/** The FAQ page's accordion (app/faq/page.tsx): which answers are open, keyed by
    "section-item" strings. */
module Faq {
  import opened Text

  /** `{ [key: string]: boolean }`; a key never set reads as `undefined`, i.e. closed. */
  type OpenItems = map<string, bool>

  /** The page starts with every answer closed. */
  const Initial: OpenItems := map[]

  /** `${sectionIndex}-${itemIndex}` */
  function ItemKey(section: nat, item: nat): string {
    NatToString(section) + "-" + NatToString(item)
  }

  /** `openItems[key]` is truthy. */
  predicate IsOpen(open: OpenItems, section: nat, item: nat) {
    var key := ItemKey(section, item);
    key in open && open[key]
  }

  /** Position of the first '-', or |t| when there is none. */
  function DashIndex(t: string): (k: nat)
    ensures k <= |t|
  {
    if t == [] || t[0] == '-' then 0 else 1 + DashIndex(t[1..])
  }

  /** After a run of digits, the first dash is the one that follows them. */
  lemma {:induction false} DashAfterDigits(a: string, b: string)
    requires AllDigits(a)
    ensures DashIndex(a + "-" + b) == |a|
  {
    if a != [] {
      assert (a + "-" + b)[1..] == a[1..] + "-" + b;
      DashAfterDigits(a[1..], b);
    }
  }

  /** Splitting at the first dash recovers both indices: distinct questions have distinct keys. */
  lemma ItemKeyInjective(s1: nat, i1: nat, s2: nat, i2: nat)
    requires ItemKey(s1, i1) == ItemKey(s2, i2)
    ensures s1 == s2 && i1 == i2
  {
    var a1, b1 := NatToString(s1), NatToString(i1);
    var a2, b2 := NatToString(s2), NatToString(i2);
    var k := ItemKey(s1, i1);
    DashAfterDigits(a1, b1);
    DashAfterDigits(a2, b2);
    assert a1 == k[..|a1|] == a2;
    assert b1 == k[|a1| + 1..] == b2;
    NatToStringInjective(s1, s2);
    NatToStringInjective(i1, i2);
  }

  /** `toggleItem`: `[key]: !prev[key]`. The toggled answer flips; every other key keeps its entry. */
  function Toggle(open: OpenItems, section: nat, item: nat): (r: OpenItems)
    ensures IsOpen(r, section, item) <==> !IsOpen(open, section, item)
    ensures forall k :: k != ItemKey(section, item) ==> (k in r <==> k in open)
    ensures forall k :: k in open && k != ItemKey(section, item) ==> r[k] == open[k]
  {
    var key := ItemKey(section, item);
    open[key := !(key in open && open[key])]
  }

  /** Toggling one answer leaves every other answer as it was. */
  lemma ToggleOthersUnchanged(open: OpenItems, section: nat, item: nat, s: nat, i: nat)
    requires s != section || i != item
    ensures IsOpen(Toggle(open, section, item), s, i) == IsOpen(open, s, i)
  {
    if ItemKey(s, i) == ItemKey(section, item) {
      ItemKeyInjective(s, i, section, item);
    }
  }

  /** Toggling the same answer twice restores what every answer shows. */
  lemma ToggleTwice(open: OpenItems, section: nat, item: nat, s: nat, i: nat)
    ensures IsOpen(Toggle(Toggle(open, section, item), section, item), s, i) == IsOpen(open, s, i)
  {
    if s != section || i != item {
      ToggleOthersUnchanged(open, section, item, s, i);
      ToggleOthersUnchanged(Toggle(open, section, item), section, item, s, i);
    }
  }

  /** Every answer starts closed, and after one toggle exactly the toggled one is open. */
  lemma FirstToggleOpensOne(section: nat, item: nat, s: nat, i: nat)
    ensures !IsOpen(Initial, s, i)
    ensures IsOpen(Toggle(Initial, section, item), s, i) <==> s == section && i == item
  {
    if s != section || i != item {
      ToggleOthersUnchanged(Initial, section, item, s, i);
    }
  }
}

=== FILE: field_errors.dfy ===
/** The `Record<string, string>` of per-field error messages that every form keeps. */
module FieldErrors {
  import opened Options

  type ErrorMap = map<string, string>

  /** `errors[key]`: the message recorded for a key, or None when the key is absent. */
  function ErrorAt(errors: ErrorMap, key: string): Option<string> {
    if key in errors then Some(errors[key]) else None
  }

  /** A map whose keys lie in `keys` is empty exactly when none of those keys has an entry. */
  lemma EmptyIffNoEntry(errors: ErrorMap, keys: set<string>)
    requires errors.Keys <= keys
    ensures |errors| == 0 <==> forall k :: k in keys ==> ErrorAt(errors, k).None?
  {
    if |errors| != 0 {
      var k :| k in errors;
      assert ErrorAt(errors, k).Some?;
    } else {
      assert errors == map[];
    }
  }

  /** Two maps over the same keys with the same entry at every key are equal. */
  lemma SameEntries(m1: ErrorMap, m2: ErrorMap, keys: set<string>)
    requires m1.Keys <= keys && m2.Keys <= keys
    requires forall k :: k in keys ==> ErrorAt(m1, k) == ErrorAt(m2, k)
    ensures m1 == m2
  {
    forall k | k in m1 ensures k in m2 && m1[k] == m2[k] {
      assert ErrorAt(m1, k) == ErrorAt(m2, k);
    }
    forall k | k in m2 ensures k in m1 {
      assert ErrorAt(m1, k) == ErrorAt(m2, k);
    }
  }

  /** Every recorded message is truthy in JavaScript, i.e. not the empty string. */
  predicate AllMessagesNonEmpty(errors: ErrorMap) {
    forall k :: k in errors ==> errors[k] != ""
  }

  /** The error half of `handleChange`: `if (errors[name]) delete errors[name]`.
      Only the edited key can disappear, and only if its message is truthy. */
  function ClearOnEdit(errors: ErrorMap, key: string): (r: ErrorMap)
    ensures key in r ==> key in errors && errors[key] == r[key] == ""
    ensures key in errors && errors[key] != "" ==> key !in r
    ensures forall k :: k != key ==> (k in r <==> k in errors)
    ensures forall k :: k in r ==> k in errors && r[k] == errors[k]
  {
    if key in errors && errors[key] != "" then errors - {key} else errors
  }

  /** On a validator's output (all messages non-empty) editing a field deletes exactly its key. */
  lemma ClearOnEditDeletesKey(errors: ErrorMap, key: string)
    requires AllMessagesNonEmpty(errors)
    ensures ClearOnEdit(errors, key) == errors - {key}
    ensures AllMessagesNonEmpty(ClearOnEdit(errors, key))
  {
  }
}

=== FILE: list_item.dfy ===
/** The list-an-item page (app/list-item/page.tsx): the listing form, its validator, the photo
    list, and the submit handler that appends the new listing to the stored `clothingItems`. */
module ListItem {
  import opened Options
  import opened Text
  import opened FieldErrors
  import Seqs
  import Auth

  datatype Field = Title | Brand | Size | Category | Price | Deposit | Description

  /** The `name` attribute of each input, which is also the field's key in the error map. */
  function Key(f: Field): string {
    match f
    case Title => "title"
    case Brand => "brand"
    case Size => "size"
    case Category => "category"
    case Price => "price"
    case Deposit => "deposit"
    case Description => "description"
  }

  /** The keys the validator can report; the brand is optional and never reported. */
  const Keys: set<string> := {"title", "size", "category", "price", "deposit", "description", "photos"}

  datatype Form = Form(title: string, brand: string, size: string, category: string,
                       price: string, deposit: string, description: string)

  /** The photo upload control is shown only while fewer than this many photos are attached. */
  const MaxPhotos := 6

  const TitleRequired := "Item name is required"
  const SizeRequired := "Size is required"
  const CategoryRequired := "Category is required"
  const PriceRequired := "Rental fee is required"
  const PriceNotPositive := "Rental fee must be a positive number"
  const DepositRequired := "Security deposit is required"
  const DepositNotPositive := "Security deposit must be a positive number"
  const DescriptionRequired := "Description is required"
  const PhotosRequired := "At least one photo is required"
  const SubmitFailed := "An error occurred while creating your listing"

  function Get(form: Form, f: Field): string {
    match f
    case Title => form.title
    case Brand => form.brand
    case Size => form.size
    case Category => form.category
    case Price => form.price
    case Deposit => form.deposit
    case Description => form.description
  }

  /** `{ ...prev, [name]: value }`: one field takes the new value, the others keep theirs. */
  function Set(form: Form, f: Field, value: string): (r: Form)
    ensures Get(r, f) == value
    ensures forall g :: g != f ==> Get(r, g) == Get(form, g)
  {
    match f
    case Title => form.(title := value)
    case Brand => form.(brand := value)
    case Size => form.(size := value)
    case Category => form.(category := value)
    case Price => form.(price := value)
    case Deposit => form.(deposit := value)
    case Description => form.(description := value)
  }

  /** `Number(s)` is a number above zero (NaN is not). */
  predicate IsPositiveNumber(s: string) {
    ParseNumber(s).Some? && ParseNumber(s).value > 0.0
  }

  /** The rule for the fee and the deposit: a blank value is missing; anything else must read
      as a number above zero. */
  function AmountError(amount: string, required: string, notPositive: string): (e: Option<string>)
    requires required != notPositive
    ensures e.None? <==> IsPositiveNumber(amount)
    ensures e == Some(required) <==> IsBlank(amount)
    ensures e.Some? ==> e.value == required || e.value == notPositive
  {
    if IsBlank(amount) then Some(required)
    else if ParseNumber(amount).None? || ParseNumber(amount).value <= 0.0 then Some(notPositive)
    else None
  }

  /** The check `validateForm` runs for one error key. Title, fee, deposit and description are
      trimmed first; size and category come from selects and are only tested for "". */
  function Check(form: Form, photoCount: nat, key: string): (e: Option<string>)
    ensures e.Some? ==> e.value != ""
  {
    if key == "title" then (if IsBlank(form.title) then Some(TitleRequired) else None)
    else if key == "size" then (if form.size == "" then Some(SizeRequired) else None)
    else if key == "category" then (if form.category == "" then Some(CategoryRequired) else None)
    else if key == "price" then AmountError(form.price, PriceRequired, PriceNotPositive)
    else if key == "deposit" then AmountError(form.deposit, DepositRequired, DepositNotPositive)
    else if key == "description" then (if IsBlank(form.description) then Some(DescriptionRequired) else None)
    else if key == "photos" then (if photoCount == 0 then Some(PhotosRequired) else None)
    else None
  }

  /** `validateForm`: the map from each failing field to its message. The brand is never
      reported; every other key carries exactly its field's rule. */
  function Validate(form: Form, photos: seq<string>): (errors: ErrorMap)
    ensures errors.Keys <= Keys
    ensures AllMessagesNonEmpty(errors)
    ensures "brand" !in errors
    ensures ErrorAt(errors, "title") == if IsBlank(form.title) then Some(TitleRequired) else None
    ensures ErrorAt(errors, "size") == if form.size == "" then Some(SizeRequired) else None
    ensures ErrorAt(errors, "category") == if form.category == "" then Some(CategoryRequired) else None
    ensures ErrorAt(errors, "price") == AmountError(form.price, PriceRequired, PriceNotPositive)
    ensures ErrorAt(errors, "deposit") == AmountError(form.deposit, DepositRequired, DepositNotPositive)
    ensures ErrorAt(errors, "description") ==
      if IsBlank(form.description) then Some(DescriptionRequired) else None
    ensures ErrorAt(errors, "photos") == if |photos| == 0 then Some(PhotosRequired) else None
  {
    map k | k in Keys && Check(form, |photos|, k).Some? :: Check(form, |photos|, k).value
  }

  /** `Object.keys(newErrors).length === 0` */
  predicate IsValid(form: Form, photos: seq<string>) {
    |Validate(form, photos)| == 0
  }

  /** The listing is accepted exactly when every required field is filled in, both amounts are
      positive numbers and at least one photo is attached; the brand plays no part. */
  lemma ValidIff(form: Form, photos: seq<string>)
    ensures IsValid(form, photos) <==>
      && !IsBlank(form.title)
      && form.size != ""
      && form.category != ""
      && IsPositiveNumber(form.price)
      && IsPositiveNumber(form.deposit)
      && !IsBlank(form.description)
      && |photos| > 0
  {
    var errors := Validate(form, photos);
    EmptyIffNoEntry(errors, Keys);
    assert (forall k :: k in Keys ==> ErrorAt(errors, k).None?) <==>
      && ErrorAt(errors, "title").None? && ErrorAt(errors, "size").None?
      && ErrorAt(errors, "category").None? && ErrorAt(errors, "price").None?
      && ErrorAt(errors, "deposit").None? && ErrorAt(errors, "description").None?
      && ErrorAt(errors, "photos").None?;
  }

  /** A fee written as a whole number is accepted exactly when it is above zero; so "0" is
      rejected as not positive, and every negative whole number too. */
  lemma WholeAmounts(n: nat)
    ensures IsPositiveNumber(NatToString(n)) <==> n > 0
    ensures !IsPositiveNumber("-" + NatToString(n))
  {
    ParseNumberOfNat(n);
    ParseNumberOfNegated(n);
  }

  /** The page's state: what was typed, the attached photos and the errors shown. */
  datatype State = State(form: Form, photos: seq<string>, errors: ErrorMap)

  /** `handleChange`: store the value, and drop the edited field's error; no other field's
      value, the photos, or any other error changes. */
  function HandleChange(st: State, f: Field, value: string): (r: State)
    ensures Get(r.form, f) == value
    ensures forall g :: g != f ==> Get(r.form, g) == Get(st.form, g)
    ensures r.photos == st.photos
    ensures AllMessagesNonEmpty(st.errors) ==> Key(f) !in r.errors
    ensures forall k :: k != Key(f) ==> (k in r.errors <==> k in st.errors)
    ensures forall k :: k in r.errors ==> k in st.errors && r.errors[k] == st.errors[k]
  {
    State(Set(st.form, f, value), st.photos, ClearOnEdit(st.errors, Key(f)))
  }

  /** An uploaded photo (its data URL) is appended; the upload control is not offered once
      six photos are attached, so the list never grows past six. */
  function AddPhoto(photos: seq<string>, dataUrl: string): (r: seq<string>)
    ensures |photos| < MaxPhotos ==> r == photos + [dataUrl]
    ensures |photos| >= MaxPhotos ==> r == photos
    ensures |photos| <= MaxPhotos ==> |r| <= MaxPhotos
  {
    if |photos| < MaxPhotos then photos + [dataUrl] else photos
  }

  /** `removePhoto(index)`: the photo at `index` is dropped and the rest keep their order. */
  function RemovePhoto(photos: seq<string>, index: int): (r: seq<string>)
    ensures 0 <= index < |photos| ==> |r| == |photos| - 1 && r == photos[..index] + photos[index + 1..]
    ensures !(0 <= index < |photos|) ==> r == photos
  {
    Seqs.RemoveAt(photos, index)
  }

  /** Removing a photo from a one-photo listing makes the form invalid again. */
  lemma RemoveOnlyPhoto(form: Form, photos: seq<string>)
    requires |photos| == 1
    ensures "photos" in Validate(form, RemovePhoto(photos, 0))
  {
  }

  /** One stored listing, as `handleSubmit` builds it. */
  datatype Listing = Listing(id: string, title: string, brand: string, size: string,
                             category: string, price: real, deposit: real, description: string,
                             photos: seq<string>, userId: string, createdAt: string)

  /** The outcome of a submit: the errors shown, the stored `clothingItems` afterwards (None
      when the key is absent) and whether the page went on to the listings page. */
  datatype SubmitResult = SubmitResult(errors: ErrorMap, stored: Option<seq<Listing>>, redirected: bool)

  /** `handleSubmit`. The fresh id and the timestamp are parameters standing for `Math.random`
      and the clock; `writeSucceeds` says whether writing storage went through. An absent
      store reads as the empty list. */
  function Submit(form: Form, photos: seq<string>, user: Option<Auth.User>,
                  stored: Option<seq<Listing>>, freshId: string, now: string,
                  writeSucceeds: bool): (r: SubmitResult)
    ensures r.redirected <==> IsValid(form, photos) && user.Some? && writeSucceeds
    ensures !r.redirected ==> r.stored == stored
    ensures !(IsValid(form, photos) && user.Some?) ==> r.errors == Validate(form, photos)
    ensures IsValid(form, photos) && user.None? ==> r.errors == map[]
    ensures IsValid(form, photos) && user.Some? && !writeSucceeds ==> r.errors == map["form" := SubmitFailed]
    ensures r.redirected ==>
      && r.errors == map[]
      && r.stored.Some?
      && var before := stored.GetOr([]);
      && |r.stored.value| == |before| + 1
      && r.stored.value[..|before|] == before
      && var item := r.stored.value[|before|];
      && item.id == freshId
      && item.userId == user.value.id
      && item.title == form.title && item.brand == form.brand
      && item.size == form.size && item.category == form.category
      && item.description == form.description
      && item.photos == photos
      && item.createdAt == now
      && item.price > 0.0 && Some(item.price) == ParseNumber(form.price)
      && item.deposit > 0.0 && Some(item.deposit) == ParseNumber(form.deposit)
  {
    var errors := Validate(form, photos);
    if |errors| != 0 || user.None? then SubmitResult(errors, stored, false)
    else if !writeSucceeds then SubmitResult(map["form" := SubmitFailed], stored, false)
    else
      var item := Listing(freshId, form.title, form.brand, form.size, form.category,
                          ParseNumber(form.price).value, ParseNumber(form.deposit).value,
                          form.description, photos, user.value.id, now);
      SubmitResult(errors, Some(stored.GetOr([]) + [item]), true)
  }
}

=== FILE: my_listings.dfy ===
/** The my-listings page (app/profile/listings/page.tsx): the signed-in user's view of the
    stored `clothingItems`, and deleting a listing from both the store and the view. */
module MyListings {
  import opened Options
  import opened Seqs
  import ListItem
  import Auth

  type Listing = ListItem.Listing

  /** `item => item.userId === userId` */
  function OwnedBy(userId: string): Listing -> bool {
    (item: Listing) => item.userId == userId
  }

  /** `item => item.id !== itemId` */
  function NotId(itemId: string): Listing -> bool {
    (item: Listing) => item.id != itemId
  }

  /** The listings the page shows a user: every stored listing they own, in stored order.
      An absent store reads as the empty list. */
  function UserListings(stored: Option<seq<Listing>>, userId: string): (r: seq<Listing>)
    ensures forall x :: x in r <==> x in stored.GetOr([]) && x.userId == userId
    ensures forall x: Listing :: x.userId == userId ==> multiset(r)[x] == multiset(stored.GetOr([]))[x]
  {
    FilterCount(stored.GetOr([]), OwnedBy(userId));
    Filter(stored.GetOr([]), OwnedBy(userId))
  }

  /** Removing every listing with the given id. */
  function WithoutId(items: seq<Listing>, itemId: string): (r: seq<Listing>)
    ensures forall x :: x in r <==> x in items && x.id != itemId
    ensures forall x: Listing :: x.id != itemId ==> multiset(r)[x] == multiset(items)[x]
  {
    FilterCount(items, NotId(itemId));
    Filter(items, NotId(itemId))
  }

  /** Both the owner view and deletion keep the stored order of the listings they keep. */
  lemma KeepStoredOrder(stored: Option<seq<Listing>>, userId: string, items: seq<Listing>, itemId: string)
    ensures IsSubsequence(UserListings(stored, userId), stored.GetOr([]))
    ensures IsSubsequence(WithoutId(items, itemId), items)
  {
    FilterIsSubsequence(stored.GetOr([]), OwnedBy(userId));
    FilterIsSubsequence(items, NotId(itemId));
  }

  /** Deleting an id no listing carries changes nothing. */
  lemma DeleteAbsentId(items: seq<Listing>, itemId: string)
    requires forall i :: 0 <= i < |items| ==> items[i].id != itemId
    ensures WithoutId(items, itemId) == items
  {
    FilterKeepsAll(items, NotId(itemId));
  }

  /** What the page holds: the stored listings and the list it shows. */
  datatype State = State(stored: Option<seq<Listing>>, shown: seq<Listing>)

  /** `handleDeleteItem`: the id is removed from the store (which is written back even if it
      was absent) and from the shown list. `writeSucceeds` says whether reading and writing
      storage went through; when it throws, the handler logs the error and neither the store
      nor the shown list changes. */
  function HandleDelete(st: State, itemId: string, writeSucceeds: bool): (r: State)
    ensures writeSucceeds ==> r.stored == Some(WithoutId(st.stored.GetOr([]), itemId))
    ensures writeSucceeds ==> r.shown == WithoutId(st.shown, itemId)
    ensures !writeSucceeds ==> r == st
  {
    if writeSucceeds then State(Some(WithoutId(st.stored.GetOr([]), itemId)), WithoutId(st.shown, itemId))
    else st
  }

  /** The shown list is the user's slice of the store after loading, and deleting keeps it so,
      whether or not the write goes through: filtering by owner and filtering out an id commute. */
  lemma {:induction false} DeleteKeepsViewInSync(st: State, userId: string, itemId: string, writeSucceeds: bool)
    requires st.shown == UserListings(st.stored, userId)
    ensures var r := HandleDelete(st, itemId, writeSucceeds);
      r.shown == UserListings(r.stored, userId)
  {
    if writeSucceeds {
      FilterFilter(st.stored.GetOr([]), OwnedBy(userId), NotId(itemId));
    }
  }

  /** After a successful listing submit, the new listing appears last on its owner's page and
      the listings shown before are unchanged. */
  lemma {:induction false} SubmittedListingIsShown(form: ListItem.Form, photos: seq<string>,
                                                   user: Option<Auth.User>,
                                                   stored: Option<seq<Listing>>, freshId: string,
                                                   now: string)
    requires ListItem.Submit(form, photos, user, stored, freshId, now, true).redirected
    ensures var after := ListItem.Submit(form, photos, user, stored, freshId, now, true).stored;
      && after.Some?
      && var before := stored.GetOr([]);
      && UserListings(after, user.value.id) ==
           UserListings(stored, user.value.id) + [after.value[|before|]]
  {
    var after := ListItem.Submit(form, photos, user, stored, freshId, now, true).stored;
    var before := stored.GetOr([]);
    var item := after.value[|before|];
    assert after.value == before + [item];
    FilterAppend(before, [item], OwnedBy(user.value.id));
    assert Filter([item], OwnedBy(user.value.id)) == [item];
  }
}

=== FILE: options.dfy ===
/** Optional values: JavaScript's `undefined`/`null` next to a present value. */
module Options {

  datatype Option<+T> = None | Some(value: T) {

    /** The JavaScript idiom `x ?? d` (and `x || d` for values that are never falsy). */
    function GetOr(default: T): T {
      match this
      case Some(v) => v
      case None => default
    }
  }
}

=== FILE: profile.dfy ===
/** The profile page's edit form (app/profile/page.tsx): saving name, phone and instagram
    through the auth context, and cancelling an edit. */
module Profile {
  import opened Options
  import opened Text
  import Auth

  datatype Form = Form(name: string, phone: string, instagram: string)

  /** What the page shows: the form, whether it is being edited, the error and success lines,
      and the auth context's user. */
  datatype View = View(form: Form, isEditing: bool, error: string, successMessage: string,
                       user: Option<Auth.User>)

  const NameRequired := "Full name is required"
  const PhoneRequired := "Phone number is required"
  const UpdateFailed := "Profile update failed"
  const Updated := "Profile updated successfully"

  /** The form as loaded from a user (`user?.name || ""` and so on); with no user it is empty. */
  function FormOf(user: Option<Auth.User>): (f: Form)
    ensures user.None? ==> f == Form("", "", "")
    ensures user.Some? ==> f.name == user.value.name && f.phone == user.value.phone
    ensures user.Some? ==> f.instagram == Auth.OrEmpty(user.value.instagram)
  {
    match user
    case None => Form("", "", "")
    case Some(u) => Form(u.name, u.phone, Auth.OrEmpty(u.instagram))
  }

  /** `result.error || "Profile update failed"` */
  function FailureMessage(error: Option<string>): (m: string)
    ensures m != ""
    ensures error.Some? && error.value != "" ==> m == error.value
    ensures error.None? || error.value == "" ==> m == UpdateFailed
  {
    if error.Some? && error.value != "" then error.value else UpdateFailed
  }

  /** `handleSubmit`. The name and phone must not be blank (checked in that order, before the
      context is asked); then the context's `updateProfile` decides. Success shows the success
      line, leaves edit mode, and reloads the form from the updated user; any failure shows a
      non-empty error and changes nothing else. `remote` is what the hosted update returned. */
  function HandleSubmit(v: View, remote: Auth.RemoteOutcome): (r: View)
    ensures IsBlank(v.form.name) ==> r == v.(error := NameRequired, successMessage := "")
    ensures !IsBlank(v.form.name) && IsBlank(v.form.phone) ==>
      r == v.(error := PhoneRequired, successMessage := "")
    ensures r.successMessage == Updated <==>
      !IsBlank(v.form.name) && !IsBlank(v.form.phone) && v.user.Some? && remote.RemoteOk?
    ensures r.successMessage == Updated ==>
      && !r.isEditing && r.error == ""
      && r.user.Some? && r.user.value.id == v.user.value.id
      && r.user.value.name == v.form.name && r.user.value.phone == v.form.phone
      && r.user.value.instagram == Some(v.form.instagram)
    ensures r.successMessage != Updated ==>
      r == v.(error := r.error, successMessage := "") && r.error != ""
    ensures v.user.None? && !IsBlank(v.form.name) && !IsBlank(v.form.phone) ==>
      r.error == "Not authenticated"
    ensures !IsBlank(v.form.name) && !IsBlank(v.form.phone) && v.user.Some? && remote.RemoteError? ==>
      r.error == (if remote.message != "" then remote.message else UpdateFailed)
    ensures !IsBlank(v.form.name) && !IsBlank(v.form.phone) && v.user.Some? && remote.RemoteThrew? ==>
      r.error == "An error occurred during profile update"
  {
    if IsBlank(v.form.name) then v.(error := NameRequired, successMessage := "")
    else if IsBlank(v.form.phone) then v.(error := PhoneRequired, successMessage := "")
    else
      var (result, user) := Auth.UpdateProfile(v.user,
        Auth.ProfileUpdate(v.form.name, v.form.phone, Some(v.form.instagram)), remote);
      if !result.success then v.(error := FailureMessage(result.error), successMessage := "")
      else View(FormOf(user), false, "", Updated, user)
  }

  /** Instagram is never required: whatever it holds, the outcome's messages and edit mode are
      the same. */
  lemma InstagramNeverRequired(v: View, remote: Auth.RemoteOutcome, instagram: string)
    ensures var w := v.(form := v.form.(instagram := instagram));
      && HandleSubmit(w, remote).error == HandleSubmit(v, remote).error
      && HandleSubmit(w, remote).successMessage == HandleSubmit(v, remote).successMessage
      && HandleSubmit(w, remote).isEditing == HandleSubmit(v, remote).isEditing
  {
  }

  /** The Cancel button: leave edit mode and reload the form from the user. */
  function Cancel(v: View): (r: View)
    ensures !r.isEditing
    ensures r.form == FormOf(v.user)
    ensures r.user == v.user && r.error == v.error && r.successMessage == v.successMessage
  {
    v.(isEditing := false, form := FormOf(v.user))
  }

  /** Cancel throws away whatever was typed: two views that differ only in the form cancel to
      the same view. */
  lemma CancelForgetsEdits(v: View, typed: Form)
    ensures Cancel(v.(form := typed)) == Cancel(v)
  {
  }

  /** What was saved is what comes back: after a successful save, the form (and a later
      Cancel) shows exactly the values that were submitted. */
  lemma SavedValuesReload(v: View, remote: Auth.RemoteOutcome)
    requires HandleSubmit(v, remote).successMessage == Updated
    ensures HandleSubmit(v, remote).form == v.form
    ensures Cancel(HandleSubmit(v, remote)).form == v.form
  {
  }
}

=== FILE: seqs.dfy ===
/** Sequence operations of JavaScript arrays that the pages use: `filter`, `slice`
    and a stable `sort` with a numeric comparator. */
module Seqs {

  /** `s.filter(p)`: the elements satisfying `p`, each as often as in `s`. */
  function Filter<T(==,!new)>(s: seq<T>, p: T -> bool): (r: seq<T>)
    ensures |r| <= |s|
    ensures forall x :: x in r <==> x in s && p(x)
  {
    if s == [] then []
    else
      assert s == [s[0]] + s[1..];
      (if p(s[0]) then [s[0]] else []) + Filter(s[1..], p)
  }

  /** Each kept element occurs as often as in `s`; every other element not at all. */
  lemma {:induction false} FilterCount<T(!new)>(s: seq<T>, p: T -> bool)
    ensures forall x :: multiset(Filter(s, p))[x] == if p(x) then multiset(s)[x] else 0
  {
    if s != [] {
      assert s == [s[0]] + s[1..];
      FilterCount(s[1..], p);
    }
  }

  /** Filtering keeps relative order: it distributes over concatenation. */
  lemma {:induction false} FilterAppend<T(!new)>(a: seq<T>, b: seq<T>, p: T -> bool)
    ensures Filter(a + b, p) == Filter(a, p) + Filter(b, p)
  {
    if a == [] {
      assert a + b == b;
    } else {
      assert (a + b)[0] == a[0];
      assert (a + b)[1..] == a[1..] + b;
      FilterAppend(a[1..], b, p);
    }
  }

  /** A filter that keeps everything is the identity. */
  lemma {:induction false} FilterKeepsAll<T(!new)>(s: seq<T>, p: T -> bool)
    requires forall i :: 0 <= i < |s| ==> p(s[i])
    ensures Filter(s, p) == s
  {
    if s != [] {
      FilterKeepsAll(s[1..], p);
    }
  }

  /** A filter that keeps nothing gives the empty sequence. */
  lemma FilterKeepsNone<T(!new)>(s: seq<T>, p: T -> bool)
    requires forall i :: 0 <= i < |s| ==> !p(s[i])
    ensures Filter(s, p) == []
  {
  }

  /** Two filters commute, and applying both is filtering by the conjunction. */
  lemma {:induction false} FilterFilter<T(!new)>(s: seq<T>, p: T -> bool, q: T -> bool)
    ensures Filter(Filter(s, p), q) == Filter(s, x => p(x) && q(x))
    ensures Filter(Filter(s, p), q) == Filter(Filter(s, q), p)
  {
    if s != [] {
      FilterFilter(s[1..], p, q);
      var h := if p(s[0]) then [s[0]] else [];
      FilterAppend(h, Filter(s[1..], p), q);
      var g := if q(s[0]) then [s[0]] else [];
      FilterAppend(g, Filter(s[1..], q), p);
    }
  }

  /** `r` can be obtained from `s` by deleting elements, i.e. it keeps their relative order. */
  predicate IsSubsequence<T(==)>(r: seq<T>, s: seq<T>)
    decreases |s|
  {
    if r == [] then true
    else if s == [] then false
    else (r[0] == s[0] && IsSubsequence(r[1..], s[1..])) || IsSubsequence(r, s[1..])
  }

  /** Filtering keeps the surviving elements in their original relative order. */
  lemma {:induction false} FilterIsSubsequence<T(!new)>(s: seq<T>, p: T -> bool)
    ensures IsSubsequence(Filter(s, p), s)
  {
    if s != [] {
      FilterIsSubsequence(s[1..], p);
      var rest := Filter(s[1..], p);
      if p(s[0]) {
        assert Filter(s, p) == [s[0]] + rest;
        assert ([s[0]] + rest)[1..] == rest;
      } else {
        assert Filter(s, p) == rest;
        if rest != [] {
          assert IsSubsequence(rest, s[1..]);
        }
      }
    }
  }

  /** `s.filter((_, i) => i !== index)`: walks the positions and skips position `index`. */
  function RemoveAt<T>(s: seq<T>, index: int): (r: seq<T>)
    ensures 0 <= index < |s| ==> r == s[..index] + s[index + 1..]
    ensures !(0 <= index < |s|) ==> r == s
  {
    if s == [] then []
    else (if index == 0 then [] else [s[0]]) + RemoveAt(s[1..], index - 1)
  }

  /** `s.slice(0, n)` for a non-negative `n`. */
  function Take<T>(s: seq<T>, n: nat): (r: seq<T>)
    ensures |r| == if n < |s| then n else |s|
    ensures r <= s
  {
    if n < |s| then s[..n] else s
  }

  predicate SortedBy<T>(s: seq<T>, key: T -> int) {
    forall i, j :: 0 <= i < j < |s| ==> key(s[i]) <= key(s[j])
  }

  /** Places `x` in front of the first element whose key is not smaller. */
  function Insert<T>(x: T, s: seq<T>, key: T -> int): (r: seq<T>)
    requires SortedBy(s, key)
    ensures SortedBy(r, key)
    ensures multiset(r) == multiset(s) + multiset{x}
  {
    if s == [] then [x]
    else if key(x) <= key(s[0]) then [x] + s
    else
      assert s == [s[0]] + s[1..];
      var rest := Insert(x, s[1..], key);
      LowerBoundOfInsert(s[0], x, s[1..], rest, key);
      SortedCons(s[0], rest, key);
      [s[0]] + rest
  }

  /** A key below every key of `s[1..]` and of `x` stays below every key of any permutation of them. */
  lemma LowerBoundOfInsert<T>(h: T, x: T, s: seq<T>, rest: seq<T>, key: T -> int)
    requires key(h) < key(x)
    requires forall i :: 0 <= i < |s| ==> key(h) <= key(s[i])
    requires multiset(rest) == multiset(s) + multiset{x}
    ensures forall j :: 0 <= j < |rest| ==> key(h) <= key(rest[j])
  {
    forall j | 0 <= j < |rest|
      ensures key(h) <= key(rest[j])
    {
      assert rest[j] in multiset(rest);
      if rest[j] != x {
        assert rest[j] in multiset(s);
        var i :| 0 <= i < |s| && s[i] == rest[j];
      }
    }
  }

  /** Putting a key no larger than all others in front keeps a sorted sequence sorted. */
  lemma SortedCons<T>(h: T, rest: seq<T>, key: T -> int)
    requires SortedBy(rest, key)
    requires forall j :: 0 <= j < |rest| ==> key(h) <= key(rest[j])
    ensures SortedBy([h] + rest, key)
  {
    var r := [h] + rest;
    forall i, j | 0 <= i < j < |r|
      ensures key(r[i]) <= key(r[j])
    {
      if i > 0 {
        assert r[i] == rest[i - 1] && r[j] == rest[j - 1];
      } else {
        assert r[j] == rest[j - 1];
      }
    }
  }

  /** Array `sort` with the comparator `(a, b) => key(a) - key(b)`: an insertion sort that
      keeps elements with equal keys in their original order, as JavaScript's sort does. */
  function SortBy<T>(s: seq<T>, key: T -> int): (r: seq<T>)
    ensures SortedBy(r, key)
    ensures multiset(r) == multiset(s)
  {
    if s == [] then []
    else
      assert s == [s[0]] + s[1..];
      Insert(s[0], SortBy(s[1..], key), key)
  }

  /** `x => key(x) === k`: the elements sharing one key. */
  function KeyIs<T>(key: T -> int, k: int): T -> bool {
    (x: T) => key(x) == k
  }

  /** Filtering a sequence with a known first element. */
  lemma FilterCons<T(!new)>(x: T, s: seq<T>, p: T -> bool)
    ensures Filter([x] + s, p) == (if p(x) then [x] else []) + Filter(s, p)
  {
    assert ([x] + s)[0] == x;
    assert ([x] + s)[1..] == s;
  }

  /** Two prefixes, one of them empty, can be swapped. */
  lemma SwapAroundEmpty<T>(a: seq<T>, b: seq<T>, f: seq<T>)
    requires a == [] || b == []
    ensures a + (b + f) == b + (a + f)
  {
    if a == [] {
      assert a + (b + f) == b + f;
    } else {
      assert b + (a + f) == a + f;
    }
  }

  /** Inserting `x` puts it after nothing that shares its key: among equal keys the order of
      `[x] + s` is kept. */
  lemma {:induction false} InsertStable<T(!new)>(x: T, s: seq<T>, key: T -> int, k: int)
    requires SortedBy(s, key)
    ensures Filter(Insert(x, s, key), KeyIs(key, k)) == Filter([x] + s, KeyIs(key, k))
  {
    var p := KeyIs(key, k);
    if s != [] && key(x) > key(s[0]) {
      var h, t := s[0], s[1..];
      assert s == [h] + t;
      var rest := Insert(x, t, key);
      assert Insert(x, s, key) == [h] + rest;
      InsertStable(x, t, key, k);
      var a: seq<T> := if p(h) then [h] else [];
      var b: seq<T> := if p(x) then [x] else [];
      assert a == [] || b == [];
      FilterCons(h, rest, p);
      FilterCons(x, t, p);
      assert Filter(Insert(x, s, key), p) == a + (b + Filter(t, p));
      FilterCons(h, t, p);
      FilterCons(x, s, p);
      assert Filter([x] + s, p) == b + (a + Filter(t, p));
      SwapAroundEmpty(a, b, Filter(t, p));
    } else {
      assert Insert(x, s, key) == [x] + s;
    }
  }

  /** `SortBy` is stable: the elements with any one key come out in their input order. */
  lemma {:induction false} SortByStable<T(!new)>(s: seq<T>, key: T -> int, k: int)
    ensures Filter(SortBy(s, key), KeyIs(key, k)) == Filter(s, KeyIs(key, k))
  {
    if s != [] {
      assert s == [s[0]] + s[1..];
      var sorted := SortBy(s[1..], key);
      InsertStable(s[0], sorted, key, k);
      SortByStable(s[1..], key, k);
      FilterCons(s[0], sorted, KeyIs(key, k));
      FilterCons(s[0], s[1..], KeyIs(key, k));
    }
  }

  /** Two sequences with the same multiset have the same elements. */
  lemma SameElements<T>(a: seq<T>, b: seq<T>)
    requires multiset(a) == multiset(b)
    ensures forall x :: x in a <==> x in b
  {
    forall x ensures x in a <==> x in b {
      assert x in a <==> x in multiset(a);
      assert x in b <==> x in multiset(b);
    }
  }

  /** Predicates that agree on every element of `s` select the same subsequence. */
  lemma {:induction false} SameFilter<T(!new)>(s: seq<T>, p: T -> bool, q: T -> bool)
    requires forall i :: 0 <= i < |s| ==> p(s[i]) == q(s[i])
    ensures Filter(s, p) == Filter(s, q)
  {
    if s != [] {
      SameFilter(s[1..], p, q);
    }
  }
}

=== FILE: sign_in.dfy ===
/** The sign-in modal (components/sign-in-modal.tsx). Its validator repeats the sign-up
    rules on the five fields it has, and has no password confirmation. */
module SignIn {
  import opened Options
  import opened Text
  import opened FieldErrors
  import opened AccountRules
  import SignUp

  datatype Field = Name | Email | Instagram | Password | Phone

  /** The `name` attribute of each input, which is also the field's key in the error map. */
  function Key(f: Field): string {
    match f
    case Name => "name"
    case Email => "email"
    case Instagram => "instagram"
    case Password => "password"
    case Phone => "phone"
  }

  const Keys: set<string> := {"name", "email", "instagram", "password", "phone"}

  datatype Form = Form(name: string, email: string, instagram: string, password: string, phone: string)

  function Get(form: Form, f: Field): string {
    match f
    case Name => form.name
    case Email => form.email
    case Instagram => form.instagram
    case Password => form.password
    case Phone => form.phone
  }

  /** `{ ...prev, [name]: value }`: one field takes the new value, the others keep theirs. */
  function Set(form: Form, f: Field, value: string): (r: Form)
    ensures Get(r, f) == value
    ensures forall g :: g != f ==> Get(r, g) == Get(form, g)
  {
    match f
    case Name => form.(name := value)
    case Email => form.(email := value)
    case Instagram => form.(instagram := value)
    case Password => form.(password := value)
    case Phone => form.(phone := value)
  }

  /** The check `validateForm` runs for one error key. */
  function Check(form: Form, key: string): (e: Option<string>)
    ensures e.Some? ==> e.value != ""
  {
    if key == "name" then NameError(form.name)
    else if key == "email" then EmailError(form.email)
    else if key == "instagram" then InstagramError(form.instagram)
    else if key == "password" then PasswordError(form.password)
    else if key == "phone" then PhoneError(form.phone)
    else None
  }

  /** `validateForm`: the map from each failing field to its message. Every key carries
      exactly its field's rule, the same rule the sign-up form applies. */
  function Validate(form: Form): (errors: ErrorMap)
    ensures errors.Keys <= Keys
    ensures AllMessagesNonEmpty(errors)
    ensures ErrorAt(errors, "name") == NameError(form.name)
    ensures ErrorAt(errors, "email") == EmailError(form.email)
    ensures ErrorAt(errors, "instagram") == InstagramError(form.instagram)
    ensures ErrorAt(errors, "password") == PasswordError(form.password)
    ensures ErrorAt(errors, "phone") == PhoneError(form.phone)
  {
    map k | k in Keys && Check(form, k).Some? :: Check(form, k).value
  }

  /** Which fields fail and with which message, in the rules' own terms. */
  lemma FieldMessages(form: Form)
    ensures var errors := Validate(form);
      && ("name" in errors <==> IsBlank(form.name))
      && ("name" in errors ==> errors["name"] == NameRequired)
      && ("email" in errors <==> !EndsWith(form.email, EmailDomain))
      && ("email" in errors ==>
            errors["email"] == if IsBlank(form.email) then EmailRequired else EmailWrongDomain)
      && ("instagram" in errors <==> !IsBlank(form.instagram) && !StartsWith(form.instagram, "@"))
      && ("instagram" in errors ==> errors["instagram"] == InstagramNeedsAt)
      && ("password" in errors <==> Utf16Length(form.password) < MinPasswordLength)
      && ("password" in errors ==>
            errors["password"] == if form.password == "" then PasswordRequired else PasswordTooShort)
      && ("phone" in errors <==> |Digits(form.phone)| != PhoneDigitCount)
      && ("phone" in errors ==>
            errors["phone"] == if IsBlank(form.phone) then PhoneRequired else PhoneInvalid)
  {
    BlankIffAllWhitespace(form.name);
  }

  /** `Object.keys(newErrors).length === 0` */
  predicate IsValid(form: Form) {
    |Validate(form)| == 0
  }

  /** The form is accepted exactly when every field meets its rule. */
  lemma ValidIff(form: Form)
    ensures IsValid(form) <==>
      && !IsBlank(form.name)
      && EndsWith(form.email, EmailDomain)
      && (IsBlank(form.instagram) || StartsWith(form.instagram, "@"))
      && Utf16Length(form.password) >= MinPasswordLength
      && |Digits(form.phone)| == PhoneDigitCount
  {
    var errors := Validate(form);
    EmptyIffNoEntry(errors, Keys);
    assert (forall k :: k in Keys ==> ErrorAt(errors, k).None?) <==>
      && ErrorAt(errors, "name").None? && ErrorAt(errors, "email").None?
      && ErrorAt(errors, "instagram").None? && ErrorAt(errors, "password").None?
      && ErrorAt(errors, "phone").None?;
  }

  /** On the five fields the forms share, signing in reports exactly the sign-up errors;
      only the confirmation error is missing. */
  lemma AgreesWithSignUp(form: Form, up: SignUp.Form)
    requires up.name == form.name && up.email == form.email && up.instagram == form.instagram
    requires up.password == form.password && up.phone == form.phone
    ensures Validate(form) == SignUp.Validate(up) - {"confirmPassword"}
  {
    var a := Validate(form);
    var full := SignUp.Validate(up);
    var b := full - {"confirmPassword"};
    forall k | k in Keys ensures ErrorAt(a, k) == ErrorAt(b, k) {
      SharedKeyAgrees(form, up, k);
    }
    SameEntries(a, b, Keys);
  }

  /** One shared key at a time: both validators apply the same rule to the same value. */
  lemma SharedKeyAgrees(form: Form, up: SignUp.Form, k: string)
    requires up.name == form.name && up.email == form.email && up.instagram == form.instagram
    requires up.password == form.password && up.phone == form.phone
    requires k in Keys
    ensures ErrorAt(Validate(form), k) == ErrorAt(SignUp.Validate(up) - {"confirmPassword"}, k)
  {
    var full := SignUp.Validate(up);
    assert ErrorAt(full - {"confirmPassword"}, k) == ErrorAt(full, k);
    if k == "name" {
    } else if k == "email" {
    } else if k == "instagram" {
    } else if k == "password" {
    } else {
      assert k == "phone";
    }
  }

  /** The modal's state: what was typed and the errors currently shown. */
  datatype State = State(form: Form, errors: ErrorMap)

  /** `handleChange`: store the value, and drop the edited field's error; no other field's
      value or error changes. */
  function HandleChange(st: State, f: Field, value: string): (r: State)
    ensures Get(r.form, f) == value
    ensures forall g :: g != f ==> Get(r.form, g) == Get(st.form, g)
    ensures AllMessagesNonEmpty(st.errors) ==> Key(f) !in r.errors
    ensures forall k :: k != Key(f) ==> (k in r.errors <==> k in st.errors)
    ensures forall k :: k in r.errors ==> k in st.errors && r.errors[k] == st.errors[k]
  {
    State(Set(st.form, f, value), ClearOnEdit(st.errors, Key(f)))
  }
}

=== FILE: sign_up.dfy ===
/** The sign-up modal (components/sign-up-modal.tsx): its form record, the validator that
    turns it into per-field error messages, and the edit handler that clears them. */
module SignUp {
  import opened Text
  import opened FieldErrors
  import opened AccountRules
  import opened Options

  datatype Field = Name | Email | Instagram | Password | ConfirmPassword | Phone

  /** The `name` attribute of each input, which is also the field's key in the error map. */
  function Key(f: Field): string {
    match f
    case Name => "name"
    case Email => "email"
    case Instagram => "instagram"
    case Password => "password"
    case ConfirmPassword => "confirmPassword"
    case Phone => "phone"
  }

  const Keys: set<string> := {"name", "email", "instagram", "password", "confirmPassword", "phone"}

  datatype Form = Form(name: string, email: string, instagram: string, password: string,
                       confirmPassword: string, phone: string)

  const PasswordMismatch := "Passwords do not match"

  function Get(form: Form, f: Field): string {
    match f
    case Name => form.name
    case Email => form.email
    case Instagram => form.instagram
    case Password => form.password
    case ConfirmPassword => form.confirmPassword
    case Phone => form.phone
  }

  /** `{ ...prev, [name]: value }`: one field takes the new value, the others keep theirs. */
  function Set(form: Form, f: Field, value: string): (r: Form)
    ensures Get(r, f) == value
    ensures forall g :: g != f ==> Get(r, g) == Get(form, g)
  {
    match f
    case Name => form.(name := value)
    case Email => form.(email := value)
    case Instagram => form.(instagram := value)
    case Password => form.(password := value)
    case ConfirmPassword => form.(confirmPassword := value)
    case Phone => form.(phone := value)
  }

  /** The check `validateForm` runs for one error key; the checks are independent of each
      other, so their order in the source does not matter. The confirmation compares the two
      passwords whether or not the password itself is acceptable. */
  function Check(form: Form, key: string): (e: Option<string>)
    ensures e.Some? ==> e.value != ""
  {
    if key == "name" then NameError(form.name)
    else if key == "email" then EmailError(form.email)
    else if key == "instagram" then InstagramError(form.instagram)
    else if key == "password" then PasswordError(form.password)
    else if key == "confirmPassword" then
      (if form.password != form.confirmPassword then Some(PasswordMismatch) else None)
    else if key == "phone" then PhoneError(form.phone)
    else None
  }

  /** `validateForm`: the map from each failing field to its message. Every key carries
      exactly its field's rule; the confirmation compares the two passwords as typed. */
  function Validate(form: Form): (errors: ErrorMap)
    ensures errors.Keys <= Keys
    ensures AllMessagesNonEmpty(errors)
    ensures ErrorAt(errors, "name") == NameError(form.name)
    ensures ErrorAt(errors, "email") == EmailError(form.email)
    ensures ErrorAt(errors, "instagram") == InstagramError(form.instagram)
    ensures ErrorAt(errors, "password") == PasswordError(form.password)
    ensures ErrorAt(errors, "confirmPassword") ==
      if form.password != form.confirmPassword then Some(PasswordMismatch) else None
    ensures ErrorAt(errors, "phone") == PhoneError(form.phone)
  {
    map k | k in Keys && Check(form, k).Some? :: Check(form, k).value
  }

  /** Which fields fail and with which message, in the rules' own terms. */
  lemma FieldMessages(form: Form)
    ensures var errors := Validate(form);
      && ("name" in errors <==> IsBlank(form.name))
      && ("name" in errors ==> errors["name"] == NameRequired)
      && ("email" in errors <==> !EndsWith(form.email, EmailDomain))
      && ("email" in errors ==>
            errors["email"] == if IsBlank(form.email) then EmailRequired else EmailWrongDomain)
      && ("instagram" in errors <==> !IsBlank(form.instagram) && !StartsWith(form.instagram, "@"))
      && ("instagram" in errors ==> errors["instagram"] == InstagramNeedsAt)
      && ("password" in errors <==> Utf16Length(form.password) < MinPasswordLength)
      && ("password" in errors ==>
            errors["password"] == if form.password == "" then PasswordRequired else PasswordTooShort)
      && ("confirmPassword" in errors <==> form.password != form.confirmPassword)
      && ("confirmPassword" in errors ==> errors["confirmPassword"] == PasswordMismatch)
      && ("phone" in errors <==> |Digits(form.phone)| != PhoneDigitCount)
      && ("phone" in errors ==>
            errors["phone"] == if IsBlank(form.phone) then PhoneRequired else PhoneInvalid)
  {
    BlankIffAllWhitespace(form.name);
  }

  /** `Object.keys(newErrors).length === 0` */
  predicate IsValid(form: Form) {
    |Validate(form)| == 0
  }

  /** The form is accepted exactly when every field meets its rule. */
  lemma ValidIff(form: Form)
    ensures IsValid(form) <==>
      && !IsBlank(form.name)
      && EndsWith(form.email, EmailDomain)
      && (IsBlank(form.instagram) || StartsWith(form.instagram, "@"))
      && Utf16Length(form.password) >= MinPasswordLength
      && form.password == form.confirmPassword
      && |Digits(form.phone)| == PhoneDigitCount
  {
    var errors := Validate(form);
    EmptyIffNoEntry(errors, Keys);
    assert (forall k :: k in Keys ==> ErrorAt(errors, k).None?) <==>
      && ErrorAt(errors, "name").None? && ErrorAt(errors, "email").None?
      && ErrorAt(errors, "instagram").None? && ErrorAt(errors, "password").None?
      && ErrorAt(errors, "confirmPassword").None? && ErrorAt(errors, "phone").None?;
  }

  /** The modal's state: what was typed and the errors currently shown. */
  datatype State = State(form: Form, errors: ErrorMap)

  /** `handleChange`: store the value, and drop the edited field's error; no other field's
      value or error changes. */
  function HandleChange(st: State, f: Field, value: string): (r: State)
    ensures Get(r.form, f) == value
    ensures forall g :: g != f ==> Get(r.form, g) == Get(st.form, g)
    ensures AllMessagesNonEmpty(st.errors) ==> Key(f) !in r.errors
    ensures forall k :: k != Key(f) ==> (k in r.errors <==> k in st.errors)
    ensures forall k :: k in r.errors ==> k in st.errors && r.errors[k] == st.errors[k]
  {
    State(Set(st.form, f, value), ClearOnEdit(st.errors, Key(f)))
  }

  /** After a failed submit, editing one field removes that field's message and leaves every
      other message shown. */
  lemma EditAfterValidate(form: Form, f: Field, value: string)
    ensures HandleChange(State(form, Validate(form)), f, value).errors == Validate(form) - {Key(f)}
  {
    ClearOnEditDeletesKey(Validate(form), Key(f));
  }
}

=== FILE: text.dfy ===
/** The JavaScript string primitives the forms and filters rely on, over `seq<char>`.
    `trim` uses the exact whitespace set of the ECMAScript standard; `toLowerCase`
    is modelled on ASCII letters only, and `Number` on plain decimal literals. */
module Text {
  import opened Options

  /** WhiteSpace and LineTerminator code points of ECMA-262 (sections 12.2 and 12.3),
      the characters `String.prototype.trim` removes. */
  predicate IsWhitespace(c: char) {
    var n := c as int;
    n == 0x09 || n == 0x0A || n == 0x0B || n == 0x0C || n == 0x0D || n == 0x20
    || n == 0xA0 || n == 0x1680 || (0x2000 <= n <= 0x200A) || n == 0x2028
    || n == 0x2029 || n == 0x202F || n == 0x205F || n == 0x3000 || n == 0xFEFF
  }

  predicate IsDigit(c: char) {
    '0' <= c <= '9'
  }

  predicate AllDigits(s: string) {
    forall i :: 0 <= i < |s| ==> IsDigit(s[i])
  }

  /** Drops leading whitespace. */
  function TrimStart(s: string): string {
    if |s| > 0 && IsWhitespace(s[0]) then TrimStart(s[1..]) else s
  }

  /** Drops trailing whitespace. */
  function TrimEnd(s: string): string {
    if |s| > 0 && IsWhitespace(s[|s| - 1]) then TrimEnd(s[..|s| - 1]) else s
  }

  /** What `TrimStart` leaves is a suffix of `s` that does not start with whitespace,
      and everything it dropped is whitespace. */
  lemma {:induction false} TrimStartSpec(s: string)
    ensures |TrimStart(s)| <= |s| && TrimStart(s) == s[|s| - |TrimStart(s)|..]
    ensures forall i :: 0 <= i < |s| - |TrimStart(s)| ==> IsWhitespace(s[i])
    ensures TrimStart(s) != [] ==> !IsWhitespace(TrimStart(s)[0])
  {
    if |s| > 0 && IsWhitespace(s[0]) {
      TrimStartSpec(s[1..]);
    }
  }

  /** What `TrimEnd` leaves is a prefix of `s` that does not end with whitespace,
      and everything it dropped is whitespace. */
  lemma {:induction false} TrimEndSpec(s: string)
    ensures |TrimEnd(s)| <= |s| && TrimEnd(s) == s[..|TrimEnd(s)|]
    ensures forall i :: |TrimEnd(s)| <= i < |s| ==> IsWhitespace(s[i])
    ensures TrimEnd(s) != [] ==> !IsWhitespace(TrimEnd(s)[|TrimEnd(s)| - 1])
  {
    if |s| > 0 && IsWhitespace(s[|s| - 1]) {
      TrimEndSpec(s[..|s| - 1]);
    }
  }

  /** `s.trim()` */
  function Trim(s: string): string {
    TrimEnd(TrimStart(s))
  }

  /** `!s.trim()`: the string is empty once trimmed. */
  predicate IsBlank(s: string) {
    Trim(s) == ""
  }

  /** A string is blank exactly when every character in it is whitespace. */
  lemma BlankIffAllWhitespace(s: string)
    ensures IsBlank(s) <==> forall i :: 0 <= i < |s| ==> IsWhitespace(s[i])
  {
    var t := TrimStart(s);
    TrimStartSpec(s);
    TrimEndSpec(t);
    if IsBlank(s) {
      forall i | 0 <= i < |s|
        ensures IsWhitespace(s[i])
      {
      }
    }
  }

  /** `s.length`: JavaScript counts UTF-16 code units, two for a character outside the Basic Multilingual Plane. */
  function Utf16Length(s: string): (n: nat)
    ensures |s| <= n <= 2 * |s|
    ensures (forall i :: 0 <= i < |s| ==> s[i] as int < 0x10000) ==> n == |s|
  {
    if s == [] then 0 else (if s[0] as int < 0x10000 then 1 else 2) + Utf16Length(s[1..])
  }

  /** `s.startsWith(p)` */
  predicate StartsWith(s: string, p: string) {
    |p| <= |s| && s[..|p|] == p
  }

  /** `s.endsWith(p)` */
  predicate EndsWith(s: string, p: string) {
    |p| <= |s| && s[|s| - |p|..] == p
  }

  /** `needle` occurs in `hay` starting at position `i`. */
  predicate OccursAt(hay: string, needle: string, i: int) {
    0 <= i && i + |needle| <= |hay| && hay[i..i + |needle|] == needle
  }

  /** `hay.includes(needle)`, scanning from the left. */
  predicate Contains(hay: string, needle: string)
    decreases |hay|
  {
    StartsWith(hay, needle) || (|hay| > 0 && Contains(hay[1..], needle))
  }

  /** The left-to-right scan finds `needle` exactly when it occurs somewhere in `hay`. */
  lemma {:induction false} ContainsIffOccurs(hay: string, needle: string)
    ensures Contains(hay, needle) <==> exists i :: OccursAt(hay, needle, i)
    decreases |hay|
  {
    if StartsWith(hay, needle) {
      assert OccursAt(hay, needle, 0);
    } else if |hay| > 0 {
      ContainsIffOccurs(hay[1..], needle);
      if Contains(hay[1..], needle) {
        var j :| OccursAt(hay[1..], needle, j);
        assert hay[1..][j..j + |needle|] == hay[j + 1..j + 1 + |needle|];
        assert OccursAt(hay, needle, j + 1);
      } else if exists i :: OccursAt(hay, needle, i) {
        var i :| OccursAt(hay, needle, i);
        assert i != 0;
        assert hay[1..][i - 1..i - 1 + |needle|] == hay[i..i + |needle|];
        assert OccursAt(hay[1..], needle, i - 1);
        assert false;
      }
    }
  }

  /** The empty search term occurs in every string. */
  lemma ContainsEmpty(hay: string)
    ensures Contains(hay, "")
  {
    assert StartsWith(hay, "");
  }

  /** `toLowerCase` on one character, for the ASCII letters. */
  function LowerChar(c: char): char {
    if 'A' <= c <= 'Z' then (c as int + 32) as char else c
  }

  /** `s.toLowerCase()` restricted to ASCII: upper-case letters are mapped, everything else is kept. */
  function ToLower(s: string): (r: string)
    ensures |r| == |s|
    ensures forall i :: 0 <= i < |s| ==> r[i] == LowerChar(s[i])
  {
    if s == [] then [] else [LowerChar(s[0])] + ToLower(s[1..])
  }

  /** Lower-casing twice is lower-casing once. */
  lemma ToLowerIdempotent(s: string)
    ensures ToLower(ToLower(s)) == ToLower(s)
  {
  }

  /** `s.replace(/\D/g, "")`: the digits of `s`, in order. */
  function Digits(s: string): (r: string)
    ensures |r| <= |s|
    ensures AllDigits(r)
  {
    if s == [] then [] else (if IsDigit(s[0]) then [s[0]] else []) + Digits(s[1..])
  }

  /** Stripping non-digits distributes over concatenation. */
  lemma {:induction false} DigitsAppend(a: string, b: string)
    ensures Digits(a + b) == Digits(a) + Digits(b)
  {
    if a == [] {
      assert a + b == b;
    } else {
      var ab := a + b;
      assert ab[0] == a[0];
      assert ab[1..] == a[1..] + b;
      DigitsAppend(a[1..], b);
      var h := if IsDigit(a[0]) then [a[0]] else [];
      assert Digits(ab) == h + Digits(ab[1..]);
      assert Digits(a) == h + Digits(a[1..]);
      assert h + (Digits(a[1..]) + Digits(b)) == (h + Digits(a[1..])) + Digits(b);
    }
  }

  /** A string of digits is left as it is, and one without digits becomes empty. */
  lemma {:induction false} DigitsKeepsOnlyDigits(s: string)
    ensures AllDigits(s) ==> Digits(s) == s
    ensures (forall i :: 0 <= i < |s| ==> !IsDigit(s[i])) ==> Digits(s) == []
  {
    if s != [] {
      DigitsKeepsOnlyDigits(s[1..]);
    }
  }

  /** A blank string has no digits. */
  lemma BlankHasNoDigits(s: string)
    requires IsBlank(s)
    ensures Digits(s) == []
  {
    BlankIffAllWhitespace(s);
    DigitsKeepsOnlyDigits(s);
  }

  /** Ten decimal digits make an unterminated match of `/^\d{10}$/`. */
  predicate IsTenDigits(s: string) {
    |s| == 10 && AllDigits(s)
  }

  function DigitChar(d: nat): char
    requires d < 10
  {
    ('0' as int + d) as char
  }

  function DigitValue(c: char): nat
    requires IsDigit(c)
  {
    c as int - '0' as int
  }

  /** The value of a string of decimal digits, most significant first. */
  function DecimalValue(s: string): nat
    requires AllDigits(s)
  {
    if s == [] then 0 else DecimalValue(s[..|s| - 1]) * 10 + DigitValue(s[|s| - 1])
  }

  function Pow10(k: nat): (r: nat)
    ensures r > 0
  {
    if k == 0 then 1 else 10 * Pow10(k - 1)
  }

  /** JavaScript's decimal rendering of a non-negative integer, as template strings produce it. */
  function NatToString(n: nat): (r: string)
    ensures |r| > 0 && AllDigits(r)
  {
    if n < 10 then [DigitChar(n)] else NatToString(n / 10) + [DigitChar(n % 10)]
  }

  /** Reading back the decimal rendering gives the number. */
  lemma {:induction false} NatToStringRoundTrip(n: nat)
    ensures DecimalValue(NatToString(n)) == n
  {
    if n >= 10 {
      var s := NatToString(n);
      assert s[..|s| - 1] == NatToString(n / 10);
      NatToStringRoundTrip(n / 10);
    }
  }

  /** Distinct numbers have distinct renderings. */
  lemma NatToStringInjective(m: nat, n: nat)
    requires NatToString(m) == NatToString(n)
    ensures m == n
  {
    NatToStringRoundTrip(m);
    NatToStringRoundTrip(n);
  }

  /** Index of the first '.', or |t| when there is none. */
  function DotIndex(t: string): (k: nat)
    ensures k <= |t|
    ensures forall i :: 0 <= i < k ==> t[i] != '.'
    ensures k < |t| ==> t[k] == '.'
  {
    if t == [] then 0 else if t[0] == '.' then 0 else 1 + DotIndex(t[1..])
  }

  /** An unsigned decimal literal `digits[.digits]` with at least one digit; None stands for NaN. */
  function ParseUnsigned(t: string): (r: Option<real>)
    ensures r.Some? ==> r.value >= 0.0
  {
    var k := DotIndex(t);
    var whole := t[..k];
    var frac := if k < |t| then t[k + 1..] else "";
    if AllDigits(whole) && AllDigits(frac) && |whole| + |frac| > 0 then
      Some(DecimalValue(whole) as real + DecimalValue(frac) as real / Pow10(|frac|) as real)
    else
      None
  }

  /** `Number(s)` on decimal input: surrounding whitespace is ignored, a blank string reads
      as 0, and one leading sign is allowed; None stands for NaN. */
  function ParseNumber(s: string): Option<real> {
    var t := Trim(s);
    if t == "" then Some(0.0)
    else if t[0] == '-' then
      match ParseUnsigned(t[1..])
      case Some(v) => Some(-v)
      case None => None
    else if t[0] == '+' then ParseUnsigned(t[1..])
    else ParseUnsigned(t)
  }

  /** Digits are never whitespace, so trimming leaves a digit string alone. */
  lemma {:induction false} TrimDigits(s: string)
    requires AllDigits(s)
    ensures Trim(s) == s
  {
    if s == [] {
      assert TrimStart(s) == s;
    } else {
      DigitStringEnds(s);
      TrimNonWhitespaceEnds(s);
    }
  }

  lemma DigitStringEnds(s: string)
    requires s != [] && AllDigits(s)
    ensures !IsWhitespace(s[0]) && !IsWhitespace(s[|s| - 1])
  {
    DigitIsNotWhitespace(s[0]);
    DigitIsNotWhitespace(s[|s| - 1]);
  }

  lemma DigitIsNotWhitespace(c: char)
    requires IsDigit(c)
    ensures !IsWhitespace(c)
  {
  }

  /** A string that neither starts nor ends with whitespace is its own trim. */
  lemma TrimNonWhitespaceEnds(s: string)
    requires s != [] && !IsWhitespace(s[0]) && !IsWhitespace(s[|s| - 1])
    ensures Trim(s) == s
  {
    assert TrimStart(s) == s;
  }

  /** `Number` reads the decimal rendering of n back as n. */
  lemma {:induction false} ParseNumberOfNat(n: nat)
    ensures ParseNumber(NatToString(n)) == Some(n as real)
  {
    var s := NatToString(n);
    TrimDigits(s);
    assert IsDigit(s[0]);
    assert ParseNumber(s) == ParseUnsigned(s);
    NatToStringRoundTrip(n);
    ParseUnsignedOfDigits(s);
  }

  /** A plain digit string reads as its decimal value. */
  lemma ParseUnsignedOfDigits(s: string)
    requires s != [] && AllDigits(s)
    ensures ParseUnsigned(s) == Some(DecimalValue(s) as real)
  {
    assert DotIndex(s) == |s|;
    assert s[..|s|] == s;
  }

  /** `Number` reads "-" followed by the decimal rendering of n as -n. */
  lemma {:induction false} ParseNumberOfNegated(n: nat)
    ensures ParseNumber("-" + NatToString(n)) == Some(-(n as real))
  {
    var d := NatToString(n);
    var s := "-" + d;
    assert s[0] == '-' && s[1..] == d && s[|s| - 1] == d[|d| - 1];
    DigitStringEnds(d);
    TrimNonWhitespaceEnds(s);
    ParseNumberOfNat(n);
    TrimDigits(d);
    assert ParseNumber(d) == ParseUnsigned(d);
  }

}
